=== FILE: README.md ===
# MoE router press: a verified model of its routing bookkeeping and compression policy

This project models the deterministic part of `MoERouterPress`, the KV-cache press
that routes each layer's hidden states through a mixture-of-experts router. It then
compresses the layer's keys and values with a strategy chosen by the dominant expert.
The learned networks produce scores, probabilities, importance values, top-k
predictions and balance losses. The model takes all of those as inputs. It covers
what the code does with them:

- **Config** (`config.dfy`): the `top_k` clamp of the router constructor. It also
  covers the per-call expert capacity `floor(B * S * capacity_factor * k / E)`, with
  the capacity factor as an exact ratio.
- **Dispatch** (`dispatch.dfy`): the capacity-limited dispatch/combine construction.
  This is the triple loop over batch, sequence and rank that keeps a used-slot
  counter per expert. It is written as a method with loop invariants and checked
  against a closed-form reference (`Placements`) over the flattened choice stream.
- **Ring** (`ring.dfy`): the fixed-size history buffers. A write goes to slot
  `counter % capacity`, and `min(counter, capacity)` entries are valid. The
  capacities are 100, 1000, 100 and 50.
- **RouterStats** (`router_stats.dfy`): the usage and decision counters, the usage
  ratios and the router's `reset_stats`.
- **Routers** (`routers.dfy`): the six router variants as one tagged state. It
  covers:
  - the state change of a routing call for each variant
  - the adaptive top-k choice and its call-scoped override
  - the cache-aware feedback `update_cache_usage`
  - the exact-balance (EPLB) expert-weight update and its clamp to [0.1, 2.0]
  - the dispatch of a call's choices against the capacity computed for the call's top-k
- **Hierarchical** (`hierarchical.dfy`): the scatter of group-local probabilities to
  global expert indices at offset `g * experts_per_group`.
- **Compression** (`compression.dfy`): the four strategies of
  `_apply_expert_compression`. Three are positional front/back windows. The
  selective strategy keeps the top-`num_keep` positions in ascending order.
- **Probs** (`probs.dfy`): the means over router probabilities that pick the
  dominant expert and the selective importance scores.
- **Press** (`press.dfy`): the press itself. It covers router creation per layer,
  `compress` as a state transition with its two error exits, the per-layer
  compression statistics, `get_stats` and `reset_stats`.
- **Gini** (`gini.dfy`): the Gini balance mode of the balanced router. Its formula
  is reported under Findings.

Keys and values are modelled as `seq<T>` along the sequence axis. Batch, heads and
head dimension are folded into the opaque element `T`. Counters are `nat`.
Probabilities and losses are `real`.

## Model

| member | source | states |
|---|---|---|
| Config.MakeConfig | kvpress/presses/moe_router_press.py:43-56 | The kept `top_k` is `min(top_k, num_experts)`: it is at most both and equals one of them. The requested value and the capacity factor are kept as given. |
| Config.Capacity | kvpress/presses/moe_router_press.py:82-85 | The capacity is the floor of `B*S*capacity_factor*k / E` in exact arithmetic: the largest whole number whose multiple of the divisor does not exceed the demand. The source's float product can come out one lower (see Left out). |
| Config.CapacityMonotone | kvpress/presses/moe_router_press.py:82-85 | A smaller `k` never yields a larger capacity. |
| Config.CapacityExample | kvpress/presses/moe_router_press.py:82-85 | With B=1, S=10, factor 1.5, k=2 and E=4 the capacity is 7. |
| Dispatch.Placements | kvpress/presses/moe_router_press.py:113-124 | The reference placement gives every choice in the flattened stream exactly one outcome: a slot or dropped. |
| Dispatch.OccurrencesAppend | kvpress/presses/moe_router_press.py:115-117 | Appending a choice raises its own expert's occurrence count by one and leaves every other expert's count alone. |
| Dispatch.PlacementsAppend | kvpress/presses/moe_router_press.py:115-124 | A new choice is placed at its expert's current fill if that is below capacity, else dropped. Earlier placements do not change. |
| Dispatch.PlaceToken | kvpress/presses/moe_router_press.py:115-124 | The rank loop of one token extends the reference placement by exactly that token's choices. It writes only below capacity, and afterwards each counter is `min(capacity, occurrences so far)`. |
| Dispatch.PlaceRow | kvpress/presses/moe_router_press.py:114-124 | The sequence loop of one batch row extends the reference placement by the row's choices, keeps slots below capacity and keeps the counter invariant. |
| Dispatch.CreateDispatchCombine | kvpress/presses/moe_router_press.py:97-126 | For a given capacity, the full triple loop returns one outcome per choice with the input's shape, and together they are the reference placement. No slot is at or above capacity. Expert `e` ends with `min(capacity, its number of choices)` slots used. `Routers.DispatchCall` supplies the capacity a router call computes. |
| Dispatch.OccurrencesAreCounts | kvpress/presses/moe_router_press.py:113-124 | The dispatch loop's per-expert counter over a choice stream equals the number of times that expert appears among the stream's expert indices, which is what the routing statistics count. |
| Dispatch.OccurrencesPrefixGrows | kvpress/presses/moe_router_press.py:119-121 | A later prefix that includes a choice of expert `e` has strictly more choices of `e` than an earlier one. |
| Dispatch.PlacementsDistinct | kvpress/presses/moe_router_press.py:119-124 | Two placed choices of the same expert never share a slot. |
| Dispatch.OccurrencesPrefixBound | kvpress/presses/moe_router_press.py:119-121 | A prefix never holds more choices of an expert than the whole stream, and strictly fewer when the next choice is that expert. |
| Dispatch.PlacementsBelowUsed | kvpress/presses/moe_router_press.py:119-124 | Every placed slot is below the expert's final fill level. |
| Dispatch.PlacementsFill | kvpress/presses/moe_router_press.py:119-124 | Slots are filled consecutively from 0: every slot below the final fill level belongs to some choice of that expert. |
| Dispatch.CellAbsent | kvpress/presses/moe_router_press.py:97-105 | An expert none of the token's choices names keeps every cell at the zero it was created with. |
| Dispatch.CellHoldsWrite | kvpress/presses/moe_router_press.py:118-123 | A placed choice's cell holds what the loop wrote there: 1.0 in the dispatch tensor and the choice's probability in the combine tensor, as long as no other choice of the token went to the same expert and slot. |
| Dispatch.RowSumUpdate | kvpress/presses/moe_router_press.py:121-123 | A choice for a fresh expert adds its written value to that expert's row of cells only, and only when it was placed. |
| Dispatch.GridSumUpdate | kvpress/presses/moe_router_press.py:121-123 | A placed choice for a fresh expert adds exactly its written value to the token's total over all cells. |
| Dispatch.TokenMass | kvpress/presses/moe_router_press.py:113-124 | For a token whose top-k experts are distinct, the sum of its dispatch (or combine) cells equals the sum over its placed choices of 1 (or of the choice's probability). |
| Dispatch.GridSumEmpty | kvpress/presses/moe_router_press.py:97-105 | A token with no choices leaves every cell zero. |
| Dispatch.RowSumEmpty | kvpress/presses/moe_router_press.py:97-105 | A token with no choices leaves each expert row zero. |
| Dispatch.DroppedTokenMass | kvpress/presses/moe_router_press.py:119-124 | A token all of whose choices hit full experts writes nothing. |
| Dispatch.FullTokenMass | kvpress/presses/moe_router_press.py:121-123 | A token none of whose choices is dropped carries its whole renormalised top-k probability in the combine tensor. |
| Ring.Empty | kvpress/presses/moe_router_press.py:246-247 | A new history has the given capacity, all slots zero, cursor 0 and no valid entries. |
| Ring.Push | kvpress/presses/moe_router_press.py:297-300 | A write lands in slot `cursor % capacity` and leaves the other slots unchanged. The cursor rises by one and the valid count by one, up to the capacity. |
| Ring.PushAll | kvpress/presses/moe_router_press.py:419-424 | Writing a sequence advances the cursor by its length and keeps the capacity. |
| Ring.Recent | kvpress/presses/moe_router_press.py:306-308 | The slots read back as history are exactly `min(counter, capacity)` long. |
| Ring.PushAllKeepsLatest | kvpress/presses/moe_router_press.py:419-424 | After a run of writes, the last `capacity` values are in their slots modulo the capacity. A value is overwritten only by a write at least `capacity` later. |
| Ring.FreshHistoryInOrder | kvpress/presses/moe_router_press.py:304-308 | Up to the capacity, the valid entries of a fresh history are the written values in write order. |
| Ring.SlotOfFreshWrite | kvpress/presses/moe_router_press.py:419-424 | Before wrap-around, the `i`-th write to a fresh history is in slot `i`. |
| Ring.ModDiffers | kvpress/presses/moe_router_press.py:422-423 | Two writes fewer than `capacity` apart go to different slots. |
| RouterStats.Fresh | kvpress/presses/moe_router_press.py:67-69 | A new router has zero tokens and zero usage and decisions for each expert. |
| RouterStats.RecordRouting | kvpress/presses/moe_router_press.py:174-180 | A base routing call adds B*S tokens and adds each expert's occurrence count to both usage and decisions. |
| RouterStats.RecordUsageOnly | kvpress/presses/moe_router_press.py:554-558 | A cache-aware routing call adds tokens and usage the same way but leaves the routing decisions unchanged. |
| RouterStats.CountedAppend | kvpress/presses/moe_router_press.py:177-178 | Counting one more selection adds one exactly when it names a valid expert. |
| RouterStats.CountsPartitionSelections | kvpress/presses/moe_router_press.py:177-180 | When every selection names a valid expert, the per-expert counts add up to the number of selections. |
| RouterStats.CountedEmpty | kvpress/presses/moe_router_press.py:177-180 | No selections means no counts. |
| RouterStats.TotalOfAddedCounts | kvpress/presses/moe_router_press.py:177-180 | The counter total rises by exactly the number of counted selections. |
| RouterStats.RecordRoutingTotal | kvpress/presses/moe_router_press.py:174-180 | One routing call raises total usage and total decisions by the number of selections made. |
| RouterStats.UsageRatios | kvpress/presses/moe_router_press.py:203-215 | Each ratio times the token total is that expert's usage. With no tokens every ratio is zero. |
| RouterStats.Reset | kvpress/presses/moe_router_press.py:217-221 | Tokens, usage and decisions are all zero, with the same number of experts. |
| Routers.KindOf | kvpress/presses/moe_router_press.py:883-942 | Each of the five router-type names selects its own router, and any other string selects the base router. |
| Routers.NewRouter | kvpress/presses/moe_router_press.py:881-942 | A new router has the clamped configuration, fresh counters and the variant its kind names. An EPLB router starts with every expert weight at 1. |
| Routers.AdaptTopK | kvpress/presses/moe_router_press.py:366-384 | The adaptive k lies in [1, top_k]. It is either top_k or one more than the index of the predictor's first maximum, and it never exceeds one more than the index of any maximum. Together these make it `min(first argmax + 1, top_k)`: `[0.9, 0.1]` with top_k 2 gives 1. |
| Routers.EffectiveTopK | kvpress/presses/moe_router_press.py:396-401 | The k a call routes with never exceeds the configured `top_k`, which never exceeds the number of experts. It is at least 1 when `top_k` is, and equals `top_k` for routers without a predictor. With a predictor it is the adaptive k of `AdaptTopK`. |
| Routers.Forward | kvpress/presses/moe_router_press.py:174-653 | Configuration and variant tag are kept. Base, balanced and adaptive: B*S tokens and each expert's occurrences are added to usage and decisions. Balanced: the call's balance loss goes to slot `cursor % 100` and the cursor advances by one. Adaptive: the importance history advances by B*S writes, one per token. Cache-aware: tokens and usage grow but decisions do not, and its histories are untouched. EPLB: counters unchanged, the call's usage column goes to slot `cursor % 50`, every weight stays in [0.1, 2.0]. |
| Routers.ForwardExactBalance | kvpress/presses/moe_router_press.py:590-653 | An EPLB call leaves the counters alone. Its load history is the old one with the call's usage column pushed at slot `cursor % 50`. Its weights are `UpdateWeights` of the old weights and the average loads of that new history, so every weight lies in [0.1, 2.0]. |
| Routers.ForwardKeepsTopK | kvpress/presses/moe_router_press.py:400-409 | The configured `top_k` after a routing call is the one before it, and the call's own k does not exceed it. |
| Routers.ForwardUsageTotal | kvpress/presses/moe_router_press.py:174-180 | On a counting router, a call raises total usage by exactly B*S*k, where k is the top-k the call routes with. |
| Routers.CallCapacityWithinConfigured | kvpress/presses/moe_router_press.py:543-548 | The capacity under the call's overridden k is never more than under the configured `top_k`. |
| Routers.CallCapacity | kvpress/presses/moe_router_press.py:82-85 | The capacity a call dispatches against is the exact `floor(B*S*capacity_factor*k / E)` for the call's top-k k. |
| Routers.DispatchCall | kvpress/presses/moe_router_press.py:87-126 | A router call's dispatch places the `[B, S, k]` choices against the capacity `_compute_capacity` gives for the call's top-k. The choices' experts are the call's `selected` indices, the ones the counters count (:177-180). Every written slot lies below that capacity. Expert `e` uses `min(capacity, Count(selected, e))` slots, the same count `Forward` adds to its usage, so `used[e] * E` never exceeds `B*S*capacity_factor*k`. |
| Routers.ResetRouter | kvpress/presses/moe_router_press.py:217-221 | Resetting a router zeroes its counters and keeps its configuration and its variant state, histories included. |
| Routers.UpdateCacheUsage | kvpress/presses/moe_router_press.py:466-476 | For a valid expert, its hit rate is set and its history slot `counter % 100` is written, with every other entry unchanged. An out-of-range expert changes neither. The counter rises by one in both cases. |
| Routers.Clamp | kvpress/presses/moe_router_press.py:607 | The result lies within the bounds and equals the input when the input already does. |
| Routers.ColumnSumNonNegative | kvpress/presses/moe_router_press.py:599 | A sum of recorded load columns is never negative. |
| Routers.AverageLoads | kvpress/presses/moe_router_press.py:596-599 | The average over the valid history columns has one non-negative entry per expert. `Routers.AverageLoadsBetween` pins its value. |
| Routers.AverageLoadsBetween | kvpress/presses/moe_router_press.py:596-599 | Each expert's average lies between its smallest and largest load over the `min(counter, 50)` valid columns, so it equals `c` when every valid column holds `c`. |
| Routers.Adjustment | kvpress/presses/moe_router_press.py:603 | The adjustment is exactly 1 at the mean load, below 1 above it and above 1 below it. |
| Common.SumNonNegative | kvpress/presses/moe_router_press.py:602 | The mean load that sets the target is never negative. |
| Routers.UpdateWeights | kvpress/presses/moe_router_press.py:600-607 | The new weights lie in [0.1, 2.0]. A weight already in that range moves toward the clamped adjustment `1 - (avg - target)/(target + 1e-8)` and ends between its old value and that adjustment. An expert at exactly the mean load keeps nine tenths of its distance from 1, so weight 1 stays 1. Of two experts with equal old weight, the more loaded one never gets the larger weight. |
| Routers.AdjustmentAntitone | kvpress/presses/moe_router_press.py:603 | A higher load never gets a larger adjustment. |
| Hierarchical.ExpertsPerGroup | kvpress/presses/moe_router_press.py:698 | `experts_per_group * num_groups` is at most the number of experts, and one more per group would exceed it. |
| Hierarchical.ScatterToken | kvpress/presses/moe_router_press.py:754-797 | A token's composed vector has one entry per expert. |
| Hierarchical.OutsideSelectedGroupsIsZero | kvpress/presses/moe_router_press.py:754-797 | An expert outside every selected group's range stays 0. |
| Hierarchical.InsideSelectedGroup | kvpress/presses/moe_router_press.py:786-797 | An expert in a selected group's range holds that group's composed probability, unless a later rank selects the same group again. |
| Hierarchical.GroupRangesDisjoint | kvpress/presses/moe_router_press.py:791-793 | Distinct groups cover disjoint expert ranges. |
| Hierarchical.GroupRangeInBounds | kvpress/presses/moe_router_press.py:791-797 | Every index a valid group writes is a valid expert. |
| Hierarchical.RemainderExpertsUnreachable | kvpress/presses/moe_router_press.py:698 | Experts at or above `num_groups * experts_per_group` never receive probability. |
| Hierarchical.GroupTwoOfFour | kvpress/presses/moe_router_press.py:698 | With 4 groups over 8 experts, group 2 covers exactly experts 4 and 5. |
| Hierarchical.GroupTwoOfFourScatter | kvpress/presses/moe_router_press.py:786-797 | A token routed to group 2 of 4 over 8 experts has zero probability on every expert other than 4 and 5. |
| Compression.StrategyFor | kvpress/presses/moe_router_press.py:874-879 | Experts 0, 1, 2 and 3 map one-to-one to aggressive, moderate, conservative and selective. |
| Compression.Window | kvpress/presses/moe_router_press.py:965-966 | The window is `max(1, floor(n * tenths / 10))`, stated as floor inequalities. |
| Compression.WindowMonotone | kvpress/presses/moe_router_press.py:964-981 | A larger fraction never gives a smaller window. |
| Compression.WiderWindowsKeepMore | kvpress/presses/moe_router_press.py:964-981 | Wider front and back windows never keep fewer positions. |
| Compression.MoreConservativeKeepsMore | kvpress/presses/moe_router_press.py:964-981 | With the 20/10, 30/20 and 50/30 percent windows, aggressive keeps at most as many positions as moderate, and moderate at most as many as conservative, on every cache length. |
| Compression.PositionalKeep | kvpress/presses/moe_router_press.py:963-985 | Kept positions ascend and are below n. When n exceeds front+back, exactly front+back positions are kept, all in the front or back window. Otherwise every position is kept. |
| Compression.PositionalIsConcatOfSlices | kvpress/presses/moe_router_press.py:967-969 | A positional strategy returns `xs[..front] + xs[n-back..]` when n > front+back, and the input unchanged otherwise. |
| Compression.AggressiveHundred | kvpress/presses/moe_router_press.py:963-969 | Aggressive on 100 positions keeps [0,20) followed by [90,100), 30 positions. |
| Compression.NumKeep | kvpress/presses/moe_router_press.py:994-996 | `num_keep` lies in [1, n] for a non-empty sequence and is 0 for an empty one. It never exceeds `n * (1 - ratio)` unless raised to 1. It is either n or the largest count not above `n * (1 - ratio)`. Together these fix it as `min(n, max(1, floor(n * (1 - ratio))))`. |
| Compression.Ramp | kvpress/presses/moe_router_press.py:1009 | The linear ramp has n strictly increasing entries. |
| Compression.BestOutside | kvpress/presses/moe_router_press.py:1011 | Returns a not-yet-chosen index with the highest score, or nothing exactly when all are chosen. |
| Compression.RangeSet | kvpress/presses/moe_router_press.py:1011 | The set of indices in [lo, hi), with hi-lo members. |
| Compression.CoveringSetIsLarge | kvpress/presses/moe_router_press.py:1011 | A set containing 0..n-1 has at least n members. |
| Compression.SubsetSize | kvpress/presses/moe_router_press.py:1011 | A subset is never larger than its superset. |
| Compression.TopKSet | kvpress/presses/moe_router_press.py:1011 | Exactly k valid indices are kept, and no dropped index scores higher than a kept one. |
| Compression.AscendingListsBelow | kvpress/presses/moe_router_press.py:1012 | Sorting the kept indices lists every member below n exactly once, in strictly increasing order. |
| Compression.AscendingLength | kvpress/presses/moe_router_press.py:1012 | The sorted list has as many entries as the set has members below n. |
| Compression.SelectiveKeep | kvpress/presses/moe_router_press.py:987-1015 | The selective strategy keeps exactly `num_keep` positions, strictly ascending and below n. No dropped position scores higher than a kept one. |
| Compression.RampKeepsSuffix | kvpress/presses/moe_router_press.py:1007-1012 | When the scores do not match the sequence length, the selective strategy keeps exactly the last `num_keep` positions. |
| Compression.IncreasingTopK | kvpress/presses/moe_router_press.py:1011 | On strictly increasing scores the top-k set is the last k indices. |
| Compression.SelectiveTenHalf | kvpress/presses/moe_router_press.py:994-1012 | With 10 positions and ratio 0.5, the selective strategy keeps 5 ascending positions. |
| Compression.KeptPositions | kvpress/presses/moe_router_press.py:963-1015 | Every strategy keeps strictly ascending positions below n. |
| Compression.IncreasingBelowIsShort | kvpress/presses/moe_router_press.py:963-1015 | Strictly ascending positions below n number at most n, so compression never lengthens the cache. |
| Compression.ApplyCompression | kvpress/presses/moe_router_press.py:953-1017 | Keys and values are cut at the same kept positions and end with equal length, at most the original length. |
| Probs.SumAdd | kvpress/presses/moe_router_press.py:1061 | The sum of a pointwise sum is the sum of the sums. |
| Probs.SumScale | kvpress/presses/moe_router_press.py:1061 | Dividing every entry by k divides the sum by k. |
| Probs.SumConst | kvpress/presses/moe_router_press.py:990-991 | n equal entries sum to n times the entry. |
| Common.SumAtMost | kvpress/presses/moe_router_press.py:1061-1064 | Entries all at most x sum to at most n times x. |
| Probs.SumSwap | kvpress/presses/moe_router_press.py:1061 | Summing by expert then across experts equals summing by token then across tokens. |
| Probs.ExpertMeans | kvpress/presses/moe_router_press.py:1061 | The mean over batch and sequence gives one value per expert. |
| Probs.ImportanceScores | kvpress/presses/moe_router_press.py:990-991 | The selective importance, a mean over the batch then over experts, gives one score per position. |
| Probs.FlatImportance | kvpress/presses/moe_router_press.py:990-991 | For softmax-normalised probabilities every importance score is exactly `1/E`, so the selective ranking is a pure tie. |
| Probs.ColumnMeansSumToOne | kvpress/presses/moe_router_press.py:990 | Averaging normalised rows gives a distribution that sums to 1. |
| Probs.ExpertMeansSumToOne | kvpress/presses/moe_router_press.py:1061 | The per-expert means of normalised probabilities sum to 1. |
| Probs.DominantAtLeastUniform | kvpress/presses/moe_router_press.py:1061-1064 | The dominant expert's mean probability is at least `1/E`. |
| Press.ZeroStats | kvpress/presses/moe_router_press.py:945-949 | Per-layer compression stats start at zero for each expert. |
| Press.NewPress | kvpress/presses/moe_router_press.py:867-879 | A new press has no layers, zero accumulated aux loss and zero forward count. |
| Press.GetRouter | kvpress/presses/moe_router_press.py:881-951 | A known layer returns the press unchanged. An unknown layer gains a fresh router and zero stats, and every other layer and all totals stay as they were. |
| Press.GetRouterIdempotent | kvpress/presses/moe_router_press.py:881-951 | Asking for the same layer twice creates its router once. |
| Press.CacheHitRate | kvpress/presses/moe_router_press.py:1019-1023 | The hit rate lies in [0, 1]. It is 1 from 1000 positions up and `len/1000` below that. |
| Press.CompressionRatio | kvpress/presses/moe_router_press.py:1078-1080 | The ratio lies in [0, 1], times the original length gives the number removed, and is 0 exactly when nothing was removed. |
| Press.Dominant | kvpress/presses/moe_router_press.py:1061-1064 | The dominant expert is a valid expert whose mean probability is maximal, and the first such. |
| Common.ArgMax | kvpress/presses/moe_router_press.py:1064 | `torch.argmax`: an index of a maximal entry, and the first one on ties. |
| Common.ArgMaxIsFirst | kvpress/presses/moe_router_press.py:382 | The index `torch.argmax` returns is at or before every position that holds the maximum. This is what pins the adaptive k of :382 to the first maximum. |
| Press.Scores | kvpress/presses/moe_router_press.py:990-991 | One importance score per sequence position. |
| Press.RouterFor | kvpress/presses/moe_router_press.py:881-951 | The router a layer will use is a valid router over the press's number of experts. |
| Press.WithLayer | kvpress/presses/moe_router_press.py:945-951 | Registering a layer's router and stats leaves every other layer and both totals as they were. |
| Press.StatsBefore | kvpress/presses/moe_router_press.py:945-949 | The stats a call starts from are the layer's own, or all zeros for a layer seen for the first time. |
| Press.KeptFor | kvpress/presses/moe_router_press.py:1065-1070 | The positions the dominant expert's strategy keeps ascend strictly and stay below the cache length. |
| Press.Route | kvpress/presses/moe_router_press.py:1041-1058 | Routing a layer creates its router if needed, applies the router's state change and adds the aux loss and one forward. Other layers are untouched. |
| Press.ReportHit | kvpress/presses/moe_router_press.py:1087-1089 | Only a cache-aware router receives the hit rate, which becomes the dominant expert's rate. Every other router is unchanged. |
| Press.Settle | kvpress/presses/moe_router_press.py:1073-1089 | The statistics step changes only the routed layer's stats and, for a cache-aware router, its feedback state. The router configuration is kept. |
| Press.CountDominant | kvpress/presses/moe_router_press.py:1075 | Before the ratio is computed, only the dominant expert's usage rises by one. |
| Press.Compress | kvpress/presses/moe_router_press.py:1025-1095 | See the bullets below this table. |
| Press.CompressAccounts | kvpress/presses/moe_router_press.py:1073-1085 | When the dominant expert has a strategy and the cache is non-empty, the call does not raise, and the layer's stats are its starting stats with one more use of the dominant expert, plus this call's compression ratio and hit rate added to that expert's totals. |
| Press.CompressWithoutStrategy | kvpress/presses/moe_router_press.py:1052-1066 | A dominant expert at index 4 or more raises after routing. The layer then holds the router after `Forward` of the call and the statistics it started with. |
| Press.CompressEmptyCache | kvpress/presses/moe_router_press.py:1073-1080 | An empty cache raises on the ratio's division. By then the layer is what routing left, with the dominant expert's usage raised by one and nothing else changed. |
| Press.CompressReportsHit | kvpress/presses/moe_router_press.py:1085-1089 | A successful call leaves the layer's router as `Forward` of the call followed by the hit-rate report, which changes only the cache-aware router. |
| Press.FourExpertsNeverLackAStrategy | kvpress/presses/moe_router_press.py:874-879 | With at most four experts the strategy lookup never fails: a call raises exactly when the cache is empty. |
| Press.CompressKeepsStatsBounded | kvpress/presses/moe_router_press.py:1073-1089 | Every layer's accumulated ratio and hit-rate totals stay between 0 and its usage count, across any compression. |
| Press.RouteKeepsBounded | kvpress/presses/moe_router_press.py:1041-1058 | Routing never breaks the bound on the stats. |
| Press.OnlyLayerChanged | kvpress/presses/moe_router_press.py:1073-1089 | If only one layer's stats change and they stay bounded, the whole press stays bounded. |
| Press.AccountKeepsBounded | kvpress/presses/moe_router_press.py:1075-1085 | Adding a ratio and a hit rate in [0, 1] together with one usage keeps an expert's totals within its usage. |
| Press.CountKeepsBounded | kvpress/presses/moe_router_press.py:1075 | Raising one usage counter keeps the bound. |
| Press.GetStats | kvpress/presses/moe_router_press.py:1097-1113 | The average aux loss times `max(1, forward_count)` is the total. The report has one entry per known layer, with its router counters, usage ratios and compression stats. |
| Press.Reset | kvpress/presses/moe_router_press.py:1115-1126 | The aux loss and forward count are zero, and every layer's router counters and compression stats are zero. Layers, router configurations and router histories are kept. |
| Press.ResetIdempotent | kvpress/presses/moe_router_press.py:1115-1126 | Resetting twice is the same as resetting once. |
| Press.StatsAfterReset | kvpress/presses/moe_router_press.py:1097-1126 | After a reset the report shows zero loss, zero average, zero forwards and all usage ratios zero. |
| Gini.UniformSums | kvpress/presses/moe_router_press.py:268-273 | On n equal loads x the sum is `n*x` and twice the rank-weighted sum is `n*(n+1)*x`. |
| Gini.UniformRatio | kvpress/presses/moe_router_press.py:268-273 | On a uniform load the ratio `2*sum((i+1)*p[i]) / (n*sum(p))` is `(n+1)/n`. |
| Gini.GiniAsWritten | kvpress/presses/moe_router_press.py:268-273 | The formula as written is the sample Gini plus the constant `1/n`. |
| Gini.GiniCorrected | kvpress/presses/moe_router_press.py:268-273 | On sorted non-negative loads the sample Gini lies in `[0, (n-1)/n]`. |
| Gini.AsWrittenRanksLikeCorrected | kvpress/presses/moe_router_press.py:268-273 | For any two loads over the same experts, both formulas give the same difference and the same order. |
| Gini.CorrectedBounds | kvpress/presses/moe_router_press.py:268-273 | On sorted non-negative loads, `2*sum((i+1)*p[i]) / (n*sum(p)) - (n+1)/n` lies in `[0, (n-1)/n]`. |
| Gini.RankLowerBound | kvpress/presses/moe_router_press.py:268-273 | On sorted non-negative loads `2*sum((i+1)*p[i]) >= (n+1)*sum(p)`. |
| Gini.RankUpperBound | kvpress/presses/moe_router_press.py:268-273 | On non-negative loads `sum((i+1)*p[i]) <= n*sum(p)`. |
| Gini.AsWrittenPenalisesUniform | kvpress/presses/moe_router_press.py:268-273 | As written, a perfectly uniform load scores `1/n` rather than 0. |
| Gini.AsWrittenFourExperts | kvpress/presses/moe_router_press.py:268-273 | Four equally loaded experts score 0.25 as written. |
| Gini.CorrectedZeroAtUniform | kvpress/presses/moe_router_press.py:268-273 | With the `(n+1)/n` offset a uniform load scores 0. |
| Gini.ZeroSums | kvpress/presses/moe_router_press.py:268-273 | An all-zero load has zero sum and zero rank-weighted sum. |
| Gini.CorrectedPositiveWhenConcentrated | kvpress/presses/moe_router_press.py:268-273 | With the offset, load concentrated on one of n ≥ 2 experts scores `(n-1)/n > 0`. |

`Press.Compress` (kvpress/presses/moe_router_press.py:1025-1095) states three things:

- The call raises exactly when the dominant expert has no strategy (index ≥ 4), or when the cache is empty and the compression ratio divides by zero. Even then, the aux loss and the forward count have already been recorded. What each path leaves in the layer's router and statistics is stated by `Press.CompressWithoutStrategy`, `Press.CompressEmptyCache`, `Press.CompressReportsHit` and `Press.CompressAccounts`.
- On success, keys and values are the inputs gathered at the dominant strategy's kept positions.
- Only the routed layer changes, and every router keeps its configuration.

## Left out

- The learned networks are not modelled: routing scores, dropout, the importance, top-k and cache-adjustment predictors, and weight initialisation. They are learned float numerics and enter the model as inputs of a routing call.
- Softmax, `torch.topk` over router probabilities and the `1e-8` renormalisation are left out. Each token's top-k choices (expert index and renormalised probability) are an input. Dispatch requires the choices to name valid experts, and the per-token mass lemmas also require them to be distinct.
- The balance-loss formulas are left out (entropy, variance, the EPLB squared deviation and the hierarchical group loss). They are float reductions, and the model takes each call's balance loss as a number. The Gini mode is modelled separately under Findings. The statistics `get_balance_loss_stats` computes over the valid history (mean, min, max, std) are also left out. The model covers which entries are valid.
- The cache-aware adjustment of router logits (`_compute_cache_aware_adjustment`) only feeds probabilities and is left out.
- The expert mask is left out. The press always passes `None`.
- The adaptive router's combine boost, which doubles a token's combine entries when its importance exceeds the threshold, is a float rescaling of tensor values. It touches no counter or slot and is left out.
- The hierarchical router's group and intra-group softmaxes and its top-group selection are inputs. Only the index scatter is modelled.
- Config.Capacity: the source computes `int(total_tokens * capacity_factor * top_k / num_experts)` in floating point, and the model uses the exact rational floor. For a factor that is not a dyadic fraction the float value can land just below an integer and truncate one lower: 45 tokens, factor 0.7, top_k 2 and 3 experts give 20.999999999999996, so the source gets 20 and the model 21. Factors such as 1.5 or 1.25 are exact. The same gap carries over to Routers.CallCapacity and Routers.DispatchCall, whose capacity is this one.
- Compression.Window: `int(seq_len * 0.2)` and the other fractions are modelled as the exact `n * 2 / 10`. A float product that rounds just below an integer would give one less.
- Compression.NumKeep: `1 - compression_ratio` is computed over reals, without float rounding.
- Compression.TopKSet: `torch.topk` does not specify which tied index it returns. The model takes the first best index, so which tied positions are kept is one admissible choice.
- RouterStats.RecordRouting: the counters are float32 tensors in the source. The model uses unbounded naturals, with no precision loss past 2^24.
- Routers.UpdateWeights: the exponential moving average and the clamp are over reals, and the mean load uses exact division.
- Routers.Forward: for the hierarchical router the forward call changes no state, and the model says so. Its group-level outputs are not part of any state.
- Probs.ExpertMeans: shapes require batch ≥ 1 and sequence length ≥ 1. The source would produce NaN means for an empty hidden-state tensor.
- Press.Compress: keys and values are required to have the same sequence length, as every caller provides them.
- Press.GetStats: the report is a value. In the source the report holds the router's live `expert_usage_count`, `total_tokens` and `routing_decisions` tensors and the layer's statistics dict, so a later `compress` or `reset_stats` also changes a report already returned. The model has no aliasing, so it does not model that.
- Routers.RouterParams: `num_experts == 0` is excluded. The source registers the router and zeroed statistics and then raises ZeroDivisionError in `_compute_capacity` (kvpress/presses/moe_router_press.py:85) on the first call. That path is not modelled.
- Routers.RouterParams: `num_groups == 0` is excluded for the hierarchical router. The source raises ZeroDivisionError at kvpress/presses/moe_router_press.py:698 while `_get_router` builds the router, before anything is registered. That path is not modelled.
- Routers.PredictorReady: a router that uses the top-k predictor needs a requested `top_k` of at least 1. With 0 the predictor has no outputs and `torch.argmax` (kvpress/presses/moe_router_press.py:382) raises. That path is not modelled.
- `reset_stats` leaves several things untouched: the balance, importance, cache-usage and load histories and their cursors, the EPLB expert weights and the cache-aware hit rates. The model follows the code, which does not clear them.
- Not modelled: host integration (the forward hook, `__call__`, the model's cache read and write-back, the supported-model list), logging and the `kv_cache_states` field. These are plumbing and I/O with no decision logic.

## Findings

| source | as written | input that shows it | evidently intended | confidence | as-written member | corrected member |
|---|---|---|---|---|---|---|
| kvpress/presses/moe_router_press.py:268-273 | The Gini balance loss is `2*sum((i+1)*p[i]) / (n*sum(p)) - 1` | four experts with equal mean load 0.25: loss 0.25 instead of 0 | subtract `(n+1)/n`, the sample Gini offset, so a balanced load scores 0 and a concentrated one scores `(n-1)/n` | not executed | Gini.AsWrittenPenalisesUniform | Gini.CorrectedZeroAtUniform |

With the formula as written, a perfectly balanced router is still penalised by `1/n`. `Gini.GiniAsWritten` shows that this is the only effect: as written the loss equals the sample Gini plus the constant `1/n`. So it has the same minimisers and gradient, and by `Gini.AsWrittenRanksLikeCorrected` it orders any two loads the same way. What changes is the reported auxiliary loss, which is `coefficient/n` too high on every call. `Gini.AsWrittenFourExperts` gives the concrete value and `Gini.CorrectedPositiveWhenConcentrated` shows that the corrected form still grows with concentration. The rest of the model takes each call's balance loss as an input, so it does not depend on either formula.

=== FILE: common.dfy ===
/**
 * Small shared vocabulary: an optional value, counting, sums over reals,
 * concatenation of nested sequences and the first-maximum index that
 * `torch.argmax` returns.
 */
module Common {

  datatype Option<T> = None | Some(value: T)

  function Min(a: int, b: int): int { if a <= b then a else b }

  function Max(a: int, b: int): int { if a >= b then a else b }

  /** Number of occurrences of `x` in `xs`. */
  function Count<T(==)>(xs: seq<T>, x: T): nat
  {
    if |xs| == 0 then 0
    else Count(xs[..|xs| - 1], x) + (if xs[|xs| - 1] == x then 1 else 0)
  }

  lemma CountAppend<T>(xs: seq<T>, ys: seq<T>, x: T)
    ensures Count(xs + ys, x) == Count(xs, x) + Count(ys, x)
    decreases |ys|
  {
    if |ys| > 0 {
      assert (xs + ys)[..|xs + ys| - 1] == xs + ys[..|ys| - 1];
      CountAppend(xs, ys[..|ys| - 1], x);
    } else {
      assert xs + ys == xs;
    }
  }

  /** Sum of a sequence of reals, left to right. */
  function Sum(xs: seq<real>): real
  {
    if |xs| == 0 then 0.0 else Sum(xs[..|xs| - 1]) + xs[|xs| - 1]
  }

  /** Non-negative entries have a non-negative sum. */
  lemma {:induction false} SumNonNegative(xs: seq<real>)
    requires forall i :: 0 <= i < |xs| ==> xs[i] >= 0.0
    ensures Sum(xs) >= 0.0
  {
    if |xs| > 0 {
      SumNonNegative(xs[..|xs| - 1]);
    }
  }

  /** Entries that are all at most `x` sum to at most `|xs| * x`. */
  lemma {:induction false} SumAtMost(xs: seq<real>, x: real)
    requires forall i :: 0 <= i < |xs| ==> xs[i] <= x
    ensures Sum(xs) <= |xs| as real * x
  {
    if |xs| > 0 {
      SumAtMost(xs[..|xs| - 1], x);
      assert |xs| as real * x == (|xs| - 1) as real * x + x;
    }
  }

  /** Concatenation of a sequence of sequences, in order. */
  function Concat<T>(xss: seq<seq<T>>): seq<T>
  {
    if |xss| == 0 then [] else Concat(xss[..|xss| - 1]) + xss[|xss| - 1]
  }

  lemma ConcatAppend<T>(xss: seq<seq<T>>, ys: seq<T>)
    ensures Concat(xss + [ys]) == Concat(xss) + ys
  {
    assert (xss + [ys])[..|xss|] == xss;
  }

  lemma ConcatLength<T, U>(xss: seq<seq<T>>, yss: seq<seq<U>>)
    requires |xss| == |yss|
    requires forall i :: 0 <= i < |xss| ==> |xss[i]| == |yss[i]|
    ensures |Concat(xss)| == |Concat(yss)|
  {
    if |xss| > 0 {
      ConcatLength(xss[..|xss| - 1], yss[..|yss| - 1]);
    }
  }

  /** A three-level nested sequence read in row-major order. */
  function Flatten3<T>(t: seq<seq<seq<T>>>): seq<T>
  {
    if |t| == 0 then [] else Flatten3(t[..|t| - 1]) + Concat(t[|t| - 1])
  }

  lemma Flatten3Append<T>(t: seq<seq<seq<T>>>, row: seq<seq<T>>)
    ensures Flatten3(t + [row]) == Flatten3(t) + Concat(row)
  {
    assert (t + [row])[..|t|] == t;
  }

  /**
   * Index of the first maximal element, the tie-break `torch.argmax`
   * documents.
   */
  function ArgMax(v: seq<real>): (r: nat)
    requires |v| > 0
    ensures r < |v|
    ensures forall j :: 0 <= j < |v| ==> v[j] <= v[r]
    ensures forall j :: 0 <= j < r ==> v[j] < v[r]
  {
    if |v| == 1 then 0
    else
      var r := ArgMax(v[..|v| - 1]);
      if v[|v| - 1] > v[r] then |v| - 1 else r
  }

  /** `ArgMax` is the first maximum: it is never past any position holding the maximum. */
  lemma ArgMaxIsFirst(v: seq<real>)
    requires |v| > 0
    ensures forall j :: 0 <= j < |v| && (forall i :: 0 <= i < |v| ==> v[i] <= v[j]) ==> ArgMax(v) <= j
  {
    var r := ArgMax(v);
    forall j | 0 <= j < |v| && (forall i :: 0 <= i < |v| ==> v[i] <= v[j])
      ensures r <= j
    {
      if j < r {
        assert false;
      }
    }
  }

  predicate StrictlyIncreasing(xs: seq<nat>)
  {
    forall i, j :: 0 <= i < j < |xs| ==> xs[i] < xs[j]
  }

  /** The positions `lo, lo + 1, ..., hi - 1`. */
  function Range(lo: nat, hi: nat): (r: seq<nat>)
    requires lo <= hi
    ensures |r| == hi - lo
    ensures forall i :: 0 <= i < |r| ==> r[i] == lo + i
  {
    seq(hi - lo, i => lo + i)
  }
}

=== FILE: compression.dfy ===
/**
 * The compression strategies of MoERouterPress._apply_expert_compression
 * and the expert-to-strategy table.
 *
 * Keys and values are modelled along the sequence axis only: position `i`
 * holds an opaque `T` that stands for everything the other axes (batch,
 * heads, head_dim) carry at that position. Every strategy computes one list
 * of kept positions and gathers keys and values at exactly those positions.
 * The percentages `int(n * 0.2)` and so on are computed exactly
 * (`n * 2 / 10`); float rounding of the products is not modelled.
 */
module Compression {
  import opened Common

  datatype Strategy = Aggressive | Moderate | Conservative | Selective

  /** The fixed expert-to-strategy table; it has entries for experts 0 to 3 only. */
  function StrategyFor(expert: nat): (s: Strategy)
    requires expert < 4
    ensures s == Aggressive <==> expert == 0
    ensures s == Moderate <==> expert == 1
    ensures s == Conservative <==> expert == 2
    ensures s == Selective <==> expert == 3
  {
    if expert == 0 then Aggressive
    else if expert == 1 then Moderate
    else if expert == 2 then Conservative
    else Selective
  }

  /** `max(1, int(n * tenths / 10))`: a window of at least one position. */
  function Window(n: nat, tenths: nat): (w: nat)
    ensures w >= 1
    ensures w * 10 <= n * tenths || w == 1
    ensures n * tenths < (w + 1) * 10
  {
    Max(1, n * tenths / 10)
  }

  /** Front and back window sizes in tenths of the sequence: 20/10, 30/20 and 50/30 percent. */
  function FrontTenths(s: Strategy): nat
    requires s != Selective
  {
    match s
    case Aggressive => 2
    case Moderate => 3
    case Conservative => 5
  }

  function BackTenths(s: Strategy): nat
    requires s != Selective
  {
    match s
    case Aggressive => 1
    case Moderate => 2
    case Conservative => 3
  }

  /**
   * The positional strategies keep the first `front` and the last `back`
   * positions when the sequence is longer than both windows together, and
   * every position otherwise.
   */
  function PositionalKeep(n: nat, front: nat, back: nat): (p: seq<nat>)
    ensures StrictlyIncreasing(p)
    ensures forall i :: 0 <= i < |p| ==> p[i] < n
    ensures n > front + back ==> |p| == front + back
    ensures n <= front + back ==> p == Range(0, n)
    ensures n > front + back ==> forall i :: 0 <= i < |p| ==> (p[i] < front || n - back <= p[i])
  {
    if n > front + back then Range(0, front) + Range(n - back, n) else Range(0, n)
  }

  /** The values of `xs` at positions `p`, in the order of `p`. */
  function Gather<T>(xs: seq<T>, p: seq<nat>): (r: seq<T>)
    requires forall i :: 0 <= i < |p| ==> p[i] < |xs|
    ensures |r| == |p|
    ensures forall i :: 0 <= i < |p| ==> r[i] == xs[p[i]]
  {
    seq(|p|, i requires 0 <= i < |p| => xs[p[i]])
  }

  /**
   * Gathering at the positional keep-list is the source's
   * `cat([x[:front], x[-back:]])`, or the input itself when the windows
   * cover it.
   */
  lemma PositionalIsConcatOfSlices<T>(xs: seq<T>, front: nat, back: nat)
    requires front >= 1 && back >= 1
    ensures |xs| > front + back ==> Gather(xs, PositionalKeep(|xs|, front, back)) == xs[..front] + xs[|xs| - back..]
    ensures |xs| <= front + back ==> Gather(xs, PositionalKeep(|xs|, front, back)) == xs
  {
  }

  /** Aggressive compression of a 100-position cache keeps positions [0, 20) and [90, 100). */
  lemma AggressiveHundred()
    ensures PositionalKeep(100, Window(100, FrontTenths(Aggressive)), Window(100, BackTenths(Aggressive)))
            == Range(0, 20) + Range(90, 100)
    ensures |Range(0, 20) + Range(90, 100)| == 30
  {
  }

  // ---------------------------------------------------------------------
  // Selective strategy

  /**
   * `min(n, max(1, int(n * (1 - compression_ratio))))`: the wanted share
   * `n * (1 - ratio)` rounded down, but at least one position and at most
   * the whole cache. (`int` truncates toward zero where `Floor` rounds
   * down; they differ only on negative shares, which `max(1, _)` lifts to 1
   * either way.)
   */
  function NumKeep(n: nat, ratio: real): (k: nat)
    ensures k <= n
    ensures n >= 1 ==> k >= 1
    ensures n == 0 ==> k == 0
    ensures k == 1 || k as real <= n as real * (1.0 - ratio)
    ensures k == n || n as real * (1.0 - ratio) < (k + 1) as real
  {
    var wanted := (n as real * (1.0 - ratio)).Floor;
    Min(n, Max(1, wanted))
  }

  /** `torch.linspace(0, 1, n)`: `i / (n - 1)`, or the single value 0 when `n == 1`. */
  function Ramp(n: nat): (r: seq<real>)
    ensures |r| == n
    ensures forall i, j :: 0 <= i < j < n ==> r[i] < r[j]
  {
    if n <= 1 then seq(n, _ => 0.0)
    else
      var d := (n - 1) as real;
      var r := seq(n, i requires 0 <= i < n => i as real / d);
      assert forall i, j :: 0 <= i < j < n ==> r[i] < r[j] by {
        forall i, j | 0 <= i < j < n
          ensures r[i] < r[j]
        {
          DivideMonotone(i as real, j as real, d);
        }
      }
      r
  }

  lemma DivideMonotone(a: real, b: real, d: real)
    requires a < b && d > 0.0
    ensures a / d < b / d
  {
    assert b / d - a / d == (b - a) / d;
  }

  /** The score vector used: the derived scores when they cover the sequence, the linear ramp otherwise. */
  function SelectiveScores(scores: seq<real>, n: nat): (r: seq<real>)
    ensures |r| == n
    ensures |scores| == n ==> r == scores
    ensures |scores| != n ==> r == Ramp(n)
  {
    if |scores| == n then scores else Ramp(n)
  }

  /**
   * The highest-scoring position among `[0, n)` outside `chosen`, the first
   * one on ties; `None` when every position is chosen.
   */
  function BestOutside(scores: seq<real>, chosen: set<nat>, n: nat): (r: Option<nat>)
    requires n <= |scores|
    ensures r.None? <==> forall i :: 0 <= i < n ==> i in chosen
    ensures r.Some? ==> r.value < n && r.value !in chosen
    ensures r.Some? ==> forall i :: 0 <= i < n && i !in chosen ==> scores[i] <= scores[r.value]
  {
    if n == 0 then None
    else
      var r := BestOutside(scores, chosen, n - 1);
      if n - 1 in chosen then r
      else if r.None? || scores[n - 1] > scores[r.value] then Some(n - 1)
      else r
  }

  /** The positions `lo .. hi - 1` as a set. */
  function RangeSet(lo: nat, hi: nat): (s: set<nat>)
    ensures forall i :: i in s <==> lo <= i < hi
    ensures lo <= hi ==> |s| == hi - lo
    decreases hi
  {
    if hi <= lo then {} else RangeSet(lo, hi - 1) + {hi - 1}
  }

  lemma CoveringSetIsLarge(s: set<nat>, n: nat)
    requires forall i :: 0 <= i < n ==> i in s
    ensures |s| >= n
  {
    SubsetSize(RangeSet(0, n), s);
  }

  lemma {:induction false} SubsetSize(a: set<nat>, b: set<nat>)
    requires a <= b
    ensures |a| <= |b|
    decreases |a|
  {
    if a != {} {
      var x :| x in a;
      SubsetSize(a - {x}, b - {x});
    }
  }

  /**
   * `topk(scores, k)` as a set of positions: `k` distinct positions of the
   * sequence, and no position left out scores higher than one kept.
   */
  function TopKSet(scores: seq<real>, k: nat): (kept: set<nat>)
    requires k <= |scores|
    ensures |kept| == k
    ensures forall i :: i in kept ==> i < |scores|
    ensures forall i, j :: i in kept && 0 <= j < |scores| && j !in kept ==> scores[j] <= scores[i]
  {
    if k == 0 then {}
    else
      var prev := TopKSet(scores, k - 1);
      if forall i :: 0 <= i < |scores| ==> i in prev then
        CoveringSetIsLarge(prev, |scores|);
        assert false;
        {}
      else
        var best := BestOutside(scores, prev, |scores|).value;
        prev + {best}
  }

  /** The members of `s` below `n`, in ascending order. */
  function Ascending(s: set<nat>, n: nat): seq<nat>
  {
    if n == 0 then []
    else Ascending(s, n - 1) + (if n - 1 in s then [n - 1] else [])
  }

  /** The listing is sorted and holds exactly the members of `s` below `n`. */
  lemma {:induction false} AscendingListsBelow(s: set<nat>, n: nat)
    ensures StrictlyIncreasing(Ascending(s, n))
    ensures forall i :: 0 <= i < |Ascending(s, n)| ==> Ascending(s, n)[i] < n && Ascending(s, n)[i] in s
    ensures forall x :: x in s && x < n ==> x in Ascending(s, n)
  {
    if n > 0 {
      AscendingListsBelow(s, n - 1);
    }
  }

  /** The members of `s` below `n`. */
  function Below(s: set<nat>, n: nat): (b: set<nat>)
    ensures forall x :: x in b <==> x in s && x < n
  {
    set x | x in s && x < n
  }

  /** Listing a set in order neither loses nor repeats a member. */
  lemma {:induction false} AscendingLength(s: set<nat>, n: nat)
    ensures |Ascending(s, n)| == |Below(s, n)|
  {
    if n == 0 {
      assert Below(s, n) == {};
    } else {
      AscendingLength(s, n - 1);
      AscendingStep(s, n);
      BelowStep(s, n);
    }
  }

  lemma AscendingStep(s: set<nat>, n: nat)
    requires n > 0
    ensures |Ascending(s, n)| == |Ascending(s, n - 1)| + (if n - 1 in s then 1 else 0)
  {
  }

  lemma BelowStep(s: set<nat>, n: nat)
    requires n > 0
    ensures |Below(s, n)| == |Below(s, n - 1)| + (if n - 1 in s then 1 else 0)
  {
    var b, b' := Below(s, n - 1), Below(s, n);
    if n - 1 in s {
      assert b' == b + {n - 1};
    } else {
      assert b' == b;
    }
  }

  /**
   * The selective keep-list: `NumKeep` positions in ascending order, the
   * top-scoring ones under the scores actually used.
   */
  function SelectiveKeep(n: nat, ratio: real, scores: seq<real>): (p: seq<nat>)
    ensures |p| == NumKeep(n, ratio)
    ensures StrictlyIncreasing(p)
    ensures forall i :: 0 <= i < |p| ==> p[i] < n
    ensures forall i, j :: 0 <= i < |p| && 0 <= j < n && j !in p ==>
              SelectiveScores(scores, n)[j] <= SelectiveScores(scores, n)[p[i]]
  {
    var used := SelectiveScores(scores, n);
    var kept := TopKSet(used, NumKeep(n, ratio));
    AscendingListsBelow(kept, n);
    AscendingLength(kept, n);
    assert Below(kept, n) == kept;
    Ascending(kept, n)
  }

  /**
   * On a score vector whose length does not match the sequence, the ramp
   * fallback keeps exactly the last `NumKeep` positions.
   */
  lemma RampKeepsSuffix(n: nat, ratio: real, scores: seq<real>)
    requires |scores| != n
    ensures SelectiveKeep(n, ratio, scores) == Range(n - NumKeep(n, ratio), n)
  {
    var k := NumKeep(n, ratio);
    IncreasingTopK(Ramp(n), k);
    AscendingSuffix(n - k, n, n);
  }

  /** On strictly increasing scores the top `k` positions are the last `k`. */
  lemma {:induction false} IncreasingTopK(scores: seq<real>, k: nat)
    requires k <= |scores|
    requires forall i, j :: 0 <= i < j < |scores| ==> scores[i] < scores[j]
    ensures TopKSet(scores, k) == RangeSet(|scores| - k, |scores|)
  {
    var n := |scores|;
    if k > 0 {
      var lo := n - k;
      var prev := TopKSet(scores, k - 1);
      IncreasingTopK(scores, k - 1);
      assert prev == RangeSet(lo + 1, n);
      NextBest(scores, lo);
      TopKStep(scores, k);
      assert TopKSet(scores, k) == RangeSet(lo + 1, n) + {lo};
      RangeSetStep(lo, n);
    }
  }

  /** Each step of the top-k selection adds the best position not yet kept. */
  lemma TopKStep(scores: seq<real>, k: nat)
    requires 0 < k <= |scores|
    ensures BestOutside(scores, TopKSet(scores, k - 1), |scores|).Some?
    ensures TopKSet(scores, k) == TopKSet(scores, k - 1) + {BestOutside(scores, TopKSet(scores, k - 1), |scores|).value}
  {
    var prev := TopKSet(scores, k - 1);
    if BestOutside(scores, prev, |scores|).None? {
      CoveringSetIsLarge(prev, |scores|);
      assert false;
    }
  }

  lemma NextBest(scores: seq<real>, lo: nat)
    requires lo < |scores|
    requires forall i, j :: 0 <= i < j < |scores| ==> scores[i] < scores[j]
    ensures BestOutside(scores, RangeSet(lo + 1, |scores|), |scores|) == Some(lo)
  {
    var best := BestOutside(scores, RangeSet(lo + 1, |scores|), |scores|);
    assert lo !in RangeSet(lo + 1, |scores|);
    assert scores[lo] <= scores[best.value];
  }

  lemma RangeSetStep(lo: nat, hi: nat)
    requires lo < hi
    ensures RangeSet(lo, hi) == RangeSet(lo + 1, hi) + {lo}
  {
  }

  lemma {:induction false} AscendingSuffix(lo: nat, hi: nat, m: nat)
    requires lo <= hi && m <= hi
    ensures m <= lo ==> Ascending(RangeSet(lo, hi), m) == []
    ensures lo < m ==> Ascending(RangeSet(lo, hi), m) == Range(lo, m)
  {
    if m > 0 {
      AscendingSuffix(lo, hi, m - 1);
      var r := RangeSet(lo, hi);
      var prev := Ascending(r, m - 1);
      if m <= lo {
        assert m - 1 !in r;
        assert Ascending(r, m) == prev + [];
      } else {
        assert m - 1 in r;
        assert Ascending(r, m) == prev + [m - 1];
        if m - 1 > lo {
          assert prev == Range(lo, m - 1);
          RangeExtend(lo, m - 1);
        } else {
          assert prev == [];
          assert Range(lo, m) == [m - 1];
        }
      }
    }
  }

  lemma RangeExtend(lo: nat, hi: nat)
    requires lo <= hi
    ensures Range(lo, hi) + [hi] == Range(lo, hi + 1)
  {
  }

  /** Selective compression with ratio 0.5 of a 10-position cache keeps 5 positions, ascending. */
  lemma SelectiveTenHalf(scores: seq<real>)
    ensures |SelectiveKeep(10, 0.5, scores)| == 5
    ensures StrictlyIncreasing(SelectiveKeep(10, 0.5, scores))
  {
    assert (10 as real * (1.0 - 0.5)).Floor == 5;
  }

  // ---------------------------------------------------------------------
  // Applying a strategy

  /** The positions a strategy keeps out of `n`. */
  function KeptPositions(s: Strategy, n: nat, ratio: real, scores: seq<real>): (p: seq<nat>)
    ensures StrictlyIncreasing(p)
    ensures forall i :: 0 <= i < |p| ==> p[i] < n
  {
    match s
    case Selective => SelectiveKeep(n, ratio, scores)
    case _ => PositionalKeep(n, Window(n, FrontTenths(s)), Window(n, BackTenths(s)))
  }

  lemma WindowMonotone(n: nat, t1: nat, t2: nat)
    requires t1 <= t2
    ensures Window(n, t1) <= Window(n, t2)
  {
    assert n * t1 <= n * t2;
  }

  /** Wider front and back windows never keep fewer positions. */
  lemma WiderWindowsKeepMore(n: nat, f1: nat, b1: nat, f2: nat, b2: nat)
    requires f1 <= f2 && b1 <= b2
    ensures |PositionalKeep(n, f1, b1)| <= |PositionalKeep(n, f2, b2)|
  {
  }

  /**
   * The positional strategies are ordered by how much they keep: on any
   * cache, aggressive keeps no more positions than moderate, and moderate
   * no more than conservative.
   */
  lemma MoreConservativeKeepsMore(n: nat, ratio: real, scores: seq<real>)
    ensures |KeptPositions(Aggressive, n, ratio, scores)| <= |KeptPositions(Moderate, n, ratio, scores)|
    ensures |KeptPositions(Moderate, n, ratio, scores)| <= |KeptPositions(Conservative, n, ratio, scores)|
  {
    WindowMonotone(n, FrontTenths(Aggressive), FrontTenths(Moderate));
    WindowMonotone(n, BackTenths(Aggressive), BackTenths(Moderate));
    WindowMonotone(n, FrontTenths(Moderate), FrontTenths(Conservative));
    WindowMonotone(n, BackTenths(Moderate), BackTenths(Conservative));
    WiderWindowsKeepMore(n, Window(n, FrontTenths(Aggressive)), Window(n, BackTenths(Aggressive)),
                         Window(n, FrontTenths(Moderate)), Window(n, BackTenths(Moderate)));
    WiderWindowsKeepMore(n, Window(n, FrontTenths(Moderate)), Window(n, BackTenths(Moderate)),
                         Window(n, FrontTenths(Conservative)), Window(n, BackTenths(Conservative)));
  }

  lemma {:induction false} IncreasingBelowIsShort(p: seq<nat>, n: nat)
    requires StrictlyIncreasing(p)
    requires forall i :: 0 <= i < |p| ==> p[i] < n
    ensures |p| <= n
    decreases |p|
  {
    if |p| > 0 {
      var m := |p| - 1;
      IncreasingBelowIsShort(p[..m], p[m]);
    }
  }

  /**
   * `_apply_expert_compression`: keys and values are cut at exactly the
   * same, strictly increasing positions, so the result is never longer than
   * the input and keeps the original order.
   */
  function ApplyCompression<T>(s: Strategy, keys: seq<T>, values: seq<T>, ratio: real, scores: seq<real>)
    : (kv: (seq<T>, seq<T>))
    requires |values| == |keys|
    ensures |kv.0| == |kv.1| == |KeptPositions(s, |keys|, ratio, scores)| <= |keys|
    ensures forall i :: 0 <= i < |kv.0| ==>
              var p := KeptPositions(s, |keys|, ratio, scores)[i];
              kv.0[i] == keys[p] && kv.1[i] == values[p]
  {
    var p := KeptPositions(s, |keys|, ratio, scores);
    IncreasingBelowIsShort(p, |keys|);
    (Gather(keys, p), Gather(values, p))
  }
}

=== FILE: config.dfy ===
/**
 * Construction-time configuration of a router (BaseMoERouter.__init__) and
 * the per-call expert capacity (BaseMoERouter._compute_capacity).
 *
 * Float configuration values such as `capacity_factor = 1.5` are modelled
 * as exact non-negative rationals; the float rounding of
 * `int(tokens * capacity_factor * top_k / num_experts)` is not modelled.
 */
module Config {
  import opened Common

  /** The non-negative rational `num / den`. */
  datatype Ratio = Ratio(num: nat, den: nat)
  {
    predicate Valid() { den > 0 }
  }

  /**
   * `requestedTopK` is the `top_k` argument as given (it sizes the adaptive
   * top-k predictor); `topK` is the clamped value the router keeps.
   */
  datatype RouterConfig = RouterConfig(
    numExperts: nat,
    requestedTopK: nat,
    topK: nat,
    capacityFactor: Ratio)
  {
    predicate Valid()
    {
      && numExperts > 0
      && topK <= numExperts
      && topK <= requestedTopK
      && capacityFactor.Valid()
    }
  }

  /** Router construction: `top_k` is silently clamped to `num_experts`. */
  function MakeConfig(numExperts: nat, topK: nat, capacityFactor: Ratio): (c: RouterConfig)
    ensures c.numExperts == numExperts && c.requestedTopK == topK
    ensures c.capacityFactor == capacityFactor
    ensures c.topK <= numExperts && c.topK <= topK
    ensures c.topK == topK || c.topK == numExperts
    ensures numExperts > 0 && capacityFactor.Valid() ==> c.Valid()
  {
    RouterConfig(numExperts, topK, Min(topK, numExperts), capacityFactor)
  }

  /** `q` is `floor(n / d)`: the largest multiple of `d` not above `n` is `q * d`. */
  predicate FloorOf(q: nat, n: nat, d: nat)
  {
    q * d <= n < (q + 1) * d
  }

  /**
   * Per-expert capacity for one call: the largest number of slots `cap` with
   * `cap * numExperts <= batch * seqLen * capacityFactor * topK`, that is
   * `floor(batch * seqLen * num * topK / (numExperts * den))`.
   */
  function Capacity(batch: nat, seqLen: nat, capacityFactor: Ratio, topK: nat, numExperts: nat): (cap: nat)
    requires capacityFactor.Valid() && numExperts > 0
    ensures FloorOf(cap, batch * seqLen * capacityFactor.num * topK, numExperts * capacityFactor.den)
  {
    var demand := batch * seqLen * capacityFactor.num * topK;
    var d := numExperts * capacityFactor.den;
    PositiveProduct(numExperts, capacityFactor.den);
    FloorDivision(demand, d);
    demand / d
  }

  lemma PositiveProduct(a: nat, b: nat)
    requires a > 0 && b > 0
    ensures a * b > 0
  {
  }

  lemma FloorDivision(n: nat, d: nat)
    requires d > 0
    ensures FloorOf(n / d, n, d)
  {
  }

  /**
   * A smaller top-k never yields a larger capacity, so a call that routes
   * with an adapted top-k gets at most the configured capacity.
   */
  lemma CapacityMonotone(batch: nat, seqLen: nat, capacityFactor: Ratio, k1: nat, k2: nat, numExperts: nat)
    requires capacityFactor.Valid() && numExperts > 0 && k1 <= k2
    ensures Capacity(batch, seqLen, capacityFactor, k1, numExperts) <= Capacity(batch, seqLen, capacityFactor, k2, numExperts)
  {
    var a := Capacity(batch, seqLen, capacityFactor, k1, numExperts);
    var b := Capacity(batch, seqLen, capacityFactor, k2, numExperts);
    var d := numExperts * capacityFactor.den;
    var base := batch * seqLen * capacityFactor.num;
    assert FloorOf(a, base * k1, d) && FloorOf(b, base * k2, d);
    ScaleMonotone(base, k1, k2);
    PositiveProduct(numExperts, capacityFactor.den);
    ScaleCancel(a, b + 1, d);
  }

  lemma ScaleMonotone(a: nat, x: nat, y: nat)
    requires x <= y
    ensures a * x <= a * y
  {
  }

  lemma ScaleCancel(x: nat, y: nat, d: nat)
    requires d > 0 && x * d < y * d
    ensures x < y
  {
    ScaleMonotoneIf(d, y, x);
  }

  lemma ScaleMonotoneIf(a: nat, x: nat, y: nat)
    ensures x <= y ==> a * x <= a * y
  {
    if x <= y {
      ScaleMonotone(a, x, y);
    }
  }

  /** The worked configuration: batch 1, sequence 10, factor 1.5, top-2 of 4 experts. */
  lemma CapacityExample()
    ensures Capacity(1, 10, Ratio(3, 2), 2, 4) == 7
  {
  }
}

=== FILE: dispatch.dfy ===
/**
 * Capacity-limited dispatch/combine construction
 * (BaseMoERouter._create_dispatch_combine_tensors).
 *
 * The top-k choices of a call arrive as `t[b][s][k]`: batch row `b`,
 * sequence position `s`, rank `k`. The source writes into two zeroed
 * `[batch, seq, experts, capacity]` tensors; the model records, for every
 * choice, the slot it was written to (`Some(pos)`) or that it was dropped
 * (`None`), and derives the tensor cells from that record.
 */
module Dispatch {
  import opened Common

  /** One top-k choice of a token: the expert index and its renormalised probability. */
  datatype Choice = Choice(expert: nat, prob: real)

  /** Number of choices in `cs` that name expert `e`. */
  function Occurrences(cs: seq<Choice>, e: nat): nat
  {
    if |cs| == 0 then 0
    else Occurrences(cs[..|cs| - 1], e) + (if cs[|cs| - 1].expert == e then 1 else 0)
  }

  /** The expert column of a choice stream: the `top_k_indices` the choices came from. */
  function Experts(cs: seq<Choice>): (es: seq<nat>)
    ensures |es| == |cs| && forall i :: 0 <= i < |cs| ==> es[i] == cs[i].expert
  {
    seq(|cs|, i requires 0 <= i < |cs| => cs[i].expert)
  }

  /** The dispatch counter and the routing statistics count the same thing. */
  lemma {:induction false} OccurrencesAreCounts(cs: seq<Choice>, e: nat)
    ensures Occurrences(cs, e) == Count(Experts(cs), e)
  {
    if |cs| > 0 {
      OccurrencesAreCounts(cs[..|cs| - 1], e);
      assert Experts(cs)[..|cs| - 1] == Experts(cs[..|cs| - 1]);
    }
  }

  /** Fills given per expert against the choice stream are the same fills against its expert column. */
  lemma FillsAreCounts(used: seq<nat>, cs: seq<Choice>, selected: seq<nat>, capacity: nat)
    requires Experts(cs) == selected
    requires forall e :: 0 <= e < |used| ==> used[e] == Min(capacity, Occurrences(cs, e))
    ensures forall e :: 0 <= e < |used| ==> used[e] == Min(capacity, Count<nat>(selected, e))
  {
    forall e | 0 <= e < |used|
      ensures used[e] == Min(capacity, Count<nat>(selected, e))
    {
      OccurrencesAreCounts(cs, e);
    }
  }

  lemma OccurrencesAppend(cs: seq<Choice>, c: Choice, e: nat)
    ensures Occurrences(cs + [c], e) == Occurrences(cs, e) + (if c.expert == e then 1 else 0)
  {
    assert (cs + [c])[..|cs|] == cs;
  }

  /**
   * Reference placement of a choice stream processed in order against a
   * per-expert capacity: choice `i` gets slot `n` when exactly `n < capacity`
   * earlier choices named the same expert, and is dropped otherwise.
   */
  function Placements(cs: seq<Choice>, capacity: nat): (p: seq<Option<nat>>)
    ensures |p| == |cs|
  {
    seq(|cs|, i requires 0 <= i < |cs| =>
      var earlier := Occurrences(cs[..i], cs[i].expert);
      if earlier < capacity then Some(earlier) else None)
  }

  lemma PlacementsAppend(cs: seq<Choice>, c: Choice, capacity: nat)
    ensures Placements(cs + [c], capacity)
         == Placements(cs, capacity)
            + [if Occurrences(cs, c.expert) < capacity then Some(Occurrences(cs, c.expert)) else None]
  {
    var l := Placements(cs + [c], capacity);
    var r := Placements(cs, capacity)
             + [if Occurrences(cs, c.expert) < capacity then Some(Occurrences(cs, c.expert)) else None];
    forall i | 0 <= i < |cs|
      ensures l[i] == r[i]
    {
      assert (cs + [c])[..i] == cs[..i];
    }
    assert (cs + [c])[..|cs|] == cs;
  }

  predicate ValidChoices(t: seq<seq<seq<Choice>>>, numExperts: nat)
  {
    forall b, s, k :: 0 <= b < |t| && 0 <= s < |t[b]| && 0 <= k < |t[b][s]| ==> t[b][s][k].expert < numExperts
  }

  predicate SameShape<T, U>(x: seq<seq<seq<T>>>, y: seq<seq<seq<U>>>)
  {
    && |x| == |y|
    && (forall b :: 0 <= b < |x| ==> |x[b]| == |y[b]|)
    && (forall b, s :: 0 <= b < |x| && 0 <= s < |x[b]| ==> |x[b][s]| == |y[b][s]|)
  }

  /**
   * The innermost loop: the rank-ordered choices `cs` of one token, processed
   * after the choices `prefix` of the same call. `used` is the per-expert
   * used-slot counter on entry and `used'` on exit.
   */
  method PlaceToken(cs: seq<Choice>, used: seq<nat>, capacity: nat, ghost prefix: seq<Choice>)
    returns (tok: seq<Option<nat>>, used': seq<nat>)
    requires forall k :: 0 <= k < |cs| ==> cs[k].expert < |used|
    requires forall e :: 0 <= e < |used| ==> used[e] == Min(capacity, Occurrences(prefix, e))
    ensures |tok| == |cs|
    ensures forall k :: 0 <= k < |tok| && tok[k].Some? ==> tok[k].value < capacity
    ensures Placements(prefix, capacity) + tok == Placements(prefix + cs, capacity)
    ensures |used'| == |used|
    ensures forall e :: 0 <= e < |used| ==> used'[e] == Min(capacity, Occurrences(prefix + cs, e))
  {
    tok := [];
    used' := used;
    var k := 0;
    assert prefix + cs[..0] == prefix;
    while k < |cs|
      invariant 0 <= k <= |cs|
      invariant |tok| == k
      invariant forall kk :: 0 <= kk < k && tok[kk].Some? ==> tok[kk].value < capacity
      invariant Placements(prefix, capacity) + tok == Placements(prefix + cs[..k], capacity)
      invariant |used'| == |used|
      invariant forall e :: 0 <= e < |used| ==> used'[e] == Min(capacity, Occurrences(prefix + cs[..k], e))
    {
      var c := cs[k];
      ghost var seen := prefix + cs[..k];
      assert seen + [c] == prefix + cs[..k + 1] by {
        assert cs[..k + 1] == cs[..k] + [c];
      }
      PlacementsAppend(seen, c, capacity);
      forall e | 0 <= e < |used|
        ensures Occurrences(seen + [c], e) == Occurrences(seen, e) + (if c.expert == e then 1 else 0)
      {
        OccurrencesAppend(seen, c, e);
      }
      if used'[c.expert] < capacity {
        tok := tok + [Some(used'[c.expert])];
        used' := used'[c.expert := used'[c.expert] + 1];
      } else {
        tok := tok + [None];
      }
      k := k + 1;
    }
    assert cs[..k] == cs;
  }

  /** The middle loop: the tokens of one batch row, in sequence order. */
  method PlaceRow(row: seq<seq<Choice>>, used: seq<nat>, capacity: nat, ghost prefix: seq<Choice>)
    returns (out: seq<seq<Option<nat>>>, used': seq<nat>)
    requires forall s, k :: 0 <= s < |row| && 0 <= k < |row[s]| ==> row[s][k].expert < |used|
    requires forall e :: 0 <= e < |used| ==> used[e] == Min(capacity, Occurrences(prefix, e))
    ensures |out| == |row|
    ensures forall s :: 0 <= s < |out| ==> |out[s]| == |row[s]|
    ensures forall s, k :: 0 <= s < |out| && 0 <= k < |out[s]| && out[s][k].Some? ==> out[s][k].value < capacity
    ensures Placements(prefix, capacity) + Concat(out) == Placements(prefix + Concat(row), capacity)
    ensures |used'| == |used|
    ensures forall e :: 0 <= e < |used| ==> used'[e] == Min(capacity, Occurrences(prefix + Concat(row), e))
  {
    out := [];
    used' := used;
    var s := 0;
    assert prefix + Concat(row[..0]) == prefix by { assert row[..0] == []; }
    while s < |row|
      invariant 0 <= s <= |row|
      invariant |out| == s
      invariant forall ss :: 0 <= ss < s ==> |out[ss]| == |row[ss]|
      invariant forall ss, k :: 0 <= ss < s && 0 <= k < |out[ss]| && out[ss][k].Some? ==> out[ss][k].value < capacity
      invariant Placements(prefix, capacity) + Concat(out) == Placements(prefix + Concat(row[..s]), capacity)
      invariant |used'| == |used|
      invariant forall e :: 0 <= e < |used| ==> used'[e] == Min(capacity, Occurrences(prefix + Concat(row[..s]), e))
    {
      ghost var seen := prefix + Concat(row[..s]);
      var tok;
      tok, used' := PlaceToken(row[s], used', capacity, seen);
      RowStep(prefix, row, s, out, tok, capacity);
      out := out + [tok];
      s := s + 1;
    }
    assert row[..s] == row;
  }

  /** One iteration of the sequence loop extends both sides of the placement invariant by one token. */
  lemma RowStep(prefix: seq<Choice>, row: seq<seq<Choice>>, s: nat, out: seq<seq<Option<nat>>>, tok: seq<Option<nat>>, capacity: nat)
    requires s < |row|
    requires Placements(prefix, capacity) + Concat(out) == Placements(prefix + Concat(row[..s]), capacity)
    requires Placements(prefix + Concat(row[..s]), capacity) + tok == Placements(prefix + Concat(row[..s]) + row[s], capacity)
    ensures prefix + Concat(row[..s]) + row[s] == prefix + Concat(row[..s + 1])
    ensures Placements(prefix, capacity) + Concat(out + [tok]) == Placements(prefix + Concat(row[..s + 1]), capacity)
  {
    assert row[..s + 1] == row[..s] + [row[s]];
    ConcatAppend(row[..s], row[s]);
    ConcatAppend(out, tok);
  }

  /**
   * The triple loop in batch, sequence, rank order with a per-expert
   * used-slot counter. Every choice is placed exactly as `Placements` says
   * for the whole call read in loop order, so an expert ends with
   * `min(capacity, number of choices naming it)` used slots.
   */
  method CreateDispatchCombine(t: seq<seq<seq<Choice>>>, numExperts: nat, capacity: nat)
    returns (slots: seq<seq<seq<Option<nat>>>>, used: seq<nat>)
    requires ValidChoices(t, numExperts)
    ensures SameShape(slots, t)
    ensures Flatten3(slots) == Placements(Flatten3(t), capacity)
    ensures forall b, s, k :: 0 <= b < |slots| && 0 <= s < |slots[b]| && 0 <= k < |slots[b][s]| && slots[b][s][k].Some?
              ==> slots[b][s][k].value < capacity
    ensures |used| == numExperts
    ensures forall e :: 0 <= e < numExperts ==> used[e] == Min(capacity, Occurrences(Flatten3(t), e))
  {
    used := seq(numExperts, _ => 0);
    slots := [];
    var b := 0;
    while b < |t|
      invariant 0 <= b <= |t|
      invariant SameShape(slots, t[..b]) && SlotsBelow(slots, capacity)
      invariant Flatten3(slots) == Placements(Flatten3(t[..b]), capacity)
      invariant |used| == numExperts
      invariant forall e :: 0 <= e < numExperts ==> used[e] == Min(capacity, Occurrences(Flatten3(t[..b]), e))
    {
      var row;
      row, used := PlaceRow(t[b], used, capacity, Flatten3(t[..b]));
      assert t[..b + 1] == t[..b] + [t[b]];
      AppendRow(slots, row, t[..b], t[b], capacity);
      Flatten3Append(t[..b], t[b]);
      Flatten3Append(slots, row);
      slots := slots + [row];
      b := b + 1;
    }
    assert t[..b] == t;
  }

  /** Every slot index already written lies below the capacity. */
  predicate SlotsBelow(slots: seq<seq<seq<Option<nat>>>>, capacity: nat)
  {
    forall b, s, k :: 0 <= b < |slots| && 0 <= s < |slots[b]| && 0 <= k < |slots[b][s]| && slots[b][s][k].Some?
      ==> slots[b][s][k].value < capacity
  }

  /** Appending one batch row of slots keeps the shape and the capacity bound. */
  lemma AppendRow(slots: seq<seq<seq<Option<nat>>>>, row: seq<seq<Option<nat>>>,
                  ts: seq<seq<seq<Choice>>>, trow: seq<seq<Choice>>, capacity: nat)
    requires SameShape(slots, ts) && SlotsBelow(slots, capacity)
    requires |row| == |trow| && forall s :: 0 <= s < |row| ==> |row[s]| == |trow[s]|
    requires forall s, k :: 0 <= s < |row| && 0 <= k < |row[s]| && row[s][k].Some? ==> row[s][k].value < capacity
    ensures SameShape(slots + [row], ts + [trow]) && SlotsBelow(slots + [row], capacity)
  {
  }

  // ---------------------------------------------------------------------
  // What the placement means for each expert's slots

  lemma {:induction false} OccurrencesPrefixGrows(cs: seq<Choice>, i: nat, j: nat, e: nat)
    requires i < j <= |cs| && cs[i].expert == e
    ensures Occurrences(cs[..i], e) < Occurrences(cs[..j], e)
    decreases j
  {
    assert cs[..j][..j - 1] == cs[..j - 1];
    if j == i + 1 {
      assert cs[..j][j - 1] == cs[i];
    } else {
      OccurrencesPrefixGrows(cs, i, j - 1, e);
    }
  }

  /**
   * No slot of an expert is written twice: two different choices naming the
   * same expert never receive the same slot.
   */
  lemma PlacementsDistinct(cs: seq<Choice>, capacity: nat, i: nat, j: nat)
    requires i < |cs| && j < |cs| && i != j
    requires cs[i].expert == cs[j].expert
    requires Placements(cs, capacity)[i].Some? && Placements(cs, capacity)[j].Some?
    ensures Placements(cs, capacity)[i] != Placements(cs, capacity)[j]
  {
    if i < j {
      OccurrencesPrefixGrows(cs, i, j, cs[i].expert);
    } else {
      OccurrencesPrefixGrows(cs, j, i, cs[j].expert);
    }
  }

  lemma {:induction false} OccurrencesPrefixBound(cs: seq<Choice>, i: nat, e: nat)
    requires i <= |cs|
    ensures Occurrences(cs[..i], e) <= Occurrences(cs, e)
    ensures i < |cs| && cs[i].expert == e ==> Occurrences(cs[..i], e) < Occurrences(cs, e)
    decreases |cs| - i
  {
    if i < |cs| {
      OccurrencesPrefixBound(cs, i + 1, e);
      assert cs[..i + 1][..i] == cs[..i];
      assert cs[..i + 1] == cs[..i] + [cs[i]];
      OccurrencesAppend(cs[..i], cs[i], e);
    } else {
      assert cs[..i] == cs;
    }
  }

  /** Every written slot of expert `e` lies below `min(capacity, choices naming e)`. */
  lemma PlacementsBelowUsed(cs: seq<Choice>, capacity: nat, i: nat)
    requires i < |cs| && Placements(cs, capacity)[i].Some?
    ensures Placements(cs, capacity)[i].value < Min(capacity, Occurrences(cs, cs[i].expert))
  {
    OccurrencesPrefixBound(cs, i, cs[i].expert);
  }

  /**
   * Slots are filled consecutively from 0: every slot below
   * `min(capacity, choices naming e)` is written by some choice naming `e`.
   */
  lemma {:induction false} PlacementsFill(cs: seq<Choice>, capacity: nat, e: nat, c: nat)
    requires c < Min(capacity, Occurrences(cs, e))
    ensures exists i :: 0 <= i < |cs| && cs[i].expert == e && Placements(cs, capacity)[i] == Some(c)
    decreases |cs|
  {
    var n := |cs| - 1;
    var init := cs[..n];
    assert cs == init + [cs[n]];
    OccurrencesAppend(init, cs[n], e);
    PlacementsAppend(init, cs[n], capacity);
    if c < Occurrences(init, e) {
      PlacementsFill(init, capacity, e, c);
      var i :| 0 <= i < |init| && init[i].expert == e && Placements(init, capacity)[i] == Some(c);
      assert Placements(cs, capacity)[i] == Placements(init, capacity)[i];
    } else {
      assert Placements(cs, capacity)[n] == Some(c);
    }
  }

  // ---------------------------------------------------------------------
  // Tensor cells of one token

  datatype Tensor = DispatchTensor | CombineTensor

  /** What a placed choice writes: 1 into the dispatch tensor, its probability into the combine tensor. */
  function Written(which: Tensor, c: Choice): real
  {
    match which
    case DispatchTensor => 1.0
    case CombineTensor => c.prob
  }

  /**
   * Cell `[e][pos]` of one token's row of a tensor after the loop: zero unless
   * a choice of the token was placed at expert `e`, slot `pos`; the last
   * such write wins, as with the source's assignments.
   */
  function Cell(which: Tensor, cs: seq<Choice>, placed: seq<Option<nat>>, e: nat, pos: nat): real
  {
    if |cs| == 0 || |placed| != |cs| then 0.0
    else if cs[|cs| - 1].expert == e && placed[|cs| - 1] == Some(pos) then Written(which, cs[|cs| - 1])
    else Cell(which, cs[..|cs| - 1], placed[..|placed| - 1], e, pos)
  }

  /**
   * The cell a placed choice was written to holds what it wrote (1 in the
   * dispatch tensor, its probability in the combine tensor), provided no
   * other choice of the token was placed at the same expert and slot.
   */
  lemma {:induction false} CellHoldsWrite(which: Tensor, cs: seq<Choice>, placed: seq<Option<nat>>, k: nat)
    requires |placed| == |cs| && k < |cs| && placed[k].Some?
    requires forall j :: 0 <= j < |cs| && j != k && cs[j].expert == cs[k].expert ==> placed[j] != placed[k]
    ensures Cell(which, cs, placed, cs[k].expert, placed[k].value) == Written(which, cs[k])
    ensures which == DispatchTensor ==> Cell(which, cs, placed, cs[k].expert, placed[k].value) == 1.0
    ensures which == CombineTensor ==> Cell(which, cs, placed, cs[k].expert, placed[k].value) == cs[k].prob
  {
    var n := |cs| - 1;
    if k < n {
      assert !(cs[n].expert == cs[k].expert && placed[n] == Some(placed[k].value));
      assert cs[..n][k] == cs[k] && placed[..n][k] == placed[k];
      CellHoldsWrite(which, cs[..n], placed[..n], k);
    }
  }

  function RowSum(which: Tensor, cs: seq<Choice>, placed: seq<Option<nat>>, e: nat, capacity: nat): real
  {
    if capacity == 0 then 0.0
    else RowSum(which, cs, placed, e, capacity - 1) + Cell(which, cs, placed, e, capacity - 1)
  }

  /** Sum of all `[e][pos]` cells of one token's row, `e < numExperts`, `pos < capacity`. */
  function GridSum(which: Tensor, cs: seq<Choice>, placed: seq<Option<nat>>, numExperts: nat, capacity: nat): real
  {
    if numExperts == 0 then 0.0
    else GridSum(which, cs, placed, numExperts - 1, capacity) + RowSum(which, cs, placed, numExperts - 1, capacity)
  }

  /** Sum of what the token's placed choices write; dropped choices contribute nothing. */
  function PlacedMass(which: Tensor, cs: seq<Choice>, placed: seq<Option<nat>>): real
  {
    if |cs| == 0 || |placed| != |cs| then 0.0
    else PlacedMass(which, cs[..|cs| - 1], placed[..|placed| - 1])
         + (if placed[|cs| - 1].Some? then Written(which, cs[|cs| - 1]) else 0.0)
  }

  predicate DistinctExperts(cs: seq<Choice>)
  {
    forall i, j :: 0 <= i < j < |cs| ==> cs[i].expert != cs[j].expert
  }

  lemma {:induction false} CellAbsent(which: Tensor, cs: seq<Choice>, placed: seq<Option<nat>>, e: nat, pos: nat)
    requires forall k :: 0 <= k < |cs| ==> cs[k].expert != e
    ensures Cell(which, cs, placed, e, pos) == 0.0
  {
    if |cs| > 0 && |placed| == |cs| {
      CellAbsent(which, cs[..|cs| - 1], placed[..|placed| - 1], e, pos);
    }
  }

  lemma {:induction false} RowSumUpdate(which: Tensor, cs: seq<Choice>, placed: seq<Option<nat>>, x: Choice, p: Option<nat>, e: nat, capacity: nat)
    requires |placed| == |cs|
    requires forall k :: 0 <= k < |cs| ==> cs[k].expert != x.expert
    ensures RowSum(which, cs + [x], placed + [p], e, capacity)
         == RowSum(which, cs, placed, e, capacity)
            + (if e == x.expert && p.Some? && p.value < capacity then Written(which, x) else 0.0)
  {
    if capacity > 0 {
      RowSumUpdate(which, cs, placed, x, p, e, capacity - 1);
      var pos := capacity - 1;
      assert (cs + [x])[..|cs|] == cs;
      assert (placed + [p])[..|placed|] == placed;
      if e == x.expert && p == Some(pos) {
        CellAbsent(which, cs, placed, e, pos);
      }
    }
  }

  lemma {:induction false} GridSumUpdate(which: Tensor, cs: seq<Choice>, placed: seq<Option<nat>>, x: Choice, p: Option<nat>, numExperts: nat, capacity: nat)
    requires |placed| == |cs|
    requires forall k :: 0 <= k < |cs| ==> cs[k].expert != x.expert
    ensures GridSum(which, cs + [x], placed + [p], numExperts, capacity)
         == GridSum(which, cs, placed, numExperts, capacity)
            + (if x.expert < numExperts && p.Some? && p.value < capacity then Written(which, x) else 0.0)
  {
    if numExperts > 0 {
      GridSumUpdate(which, cs, placed, x, p, numExperts - 1, capacity);
      RowSumUpdate(which, cs, placed, x, p, numExperts - 1, capacity);
    }
  }

  /**
   * A token's row of the dispatch (combine) tensor sums to the number
   * (probability mass) of its choices that were not dropped, when its top-k
   * experts are distinct and in range.
   */
  lemma {:induction false} TokenMass(which: Tensor, cs: seq<Choice>, placed: seq<Option<nat>>, numExperts: nat, capacity: nat)
    requires |placed| == |cs|
    requires DistinctExperts(cs)
    requires forall k :: 0 <= k < |cs| ==> cs[k].expert < numExperts
    requires forall k :: 0 <= k < |placed| && placed[k].Some? ==> placed[k].value < capacity
    ensures GridSum(which, cs, placed, numExperts, capacity) == PlacedMass(which, cs, placed)
  {
    if |cs| == 0 {
      GridSumEmpty(which, cs, placed, numExperts, capacity);
    } else {
      var n := |cs| - 1;
      assert cs == cs[..n] + [cs[n]];
      assert placed == placed[..n] + [placed[n]];
      TokenMass(which, cs[..n], placed[..n], numExperts, capacity);
      GridSumUpdate(which, cs[..n], placed[..n], cs[n], placed[n], numExperts, capacity);
    }
  }

  lemma {:induction false} GridSumEmpty(which: Tensor, cs: seq<Choice>, placed: seq<Option<nat>>, numExperts: nat, capacity: nat)
    requires |cs| == 0
    ensures GridSum(which, cs, placed, numExperts, capacity) == 0.0
  {
    if numExperts > 0 {
      GridSumEmpty(which, cs, placed, numExperts - 1, capacity);
      RowSumEmpty(which, cs, placed, numExperts - 1, capacity);
    }
  }

  lemma {:induction false} RowSumEmpty(which: Tensor, cs: seq<Choice>, placed: seq<Option<nat>>, e: nat, capacity: nat)
    requires |cs| == 0
    ensures RowSum(which, cs, placed, e, capacity) == 0.0
  {
    if capacity > 0 {
      RowSumEmpty(which, cs, placed, e, capacity - 1);
    }
  }

  /** A token none of whose choices was placed receives zero weight from every expert. */
  lemma {:induction false} DroppedTokenMass(which: Tensor, cs: seq<Choice>, placed: seq<Option<nat>>)
    requires |placed| == |cs|
    requires forall k :: 0 <= k < |placed| ==> placed[k].None?
    ensures PlacedMass(which, cs, placed) == 0.0
  {
    if |cs| > 0 {
      DroppedTokenMass(which, cs[..|cs| - 1], placed[..|placed| - 1]);
    }
  }

  /** A token all of whose choices were placed keeps its whole top-k probability mass. */
  lemma {:induction false} FullTokenMass(cs: seq<Choice>, placed: seq<Option<nat>>)
    requires |placed| == |cs|
    requires forall k :: 0 <= k < |placed| ==> placed[k].Some?
    ensures PlacedMass(CombineTensor, cs, placed) == Sum(Probs(cs))
  {
    if |cs| > 0 {
      var n := |cs| - 1;
      FullTokenMass(cs[..n], placed[..n]);
      assert Probs(cs)[..n] == Probs(cs[..n]);
    }
  }

  function Probs(cs: seq<Choice>): (r: seq<real>)
    ensures |r| == |cs| && forall k :: 0 <= k < |cs| ==> r[k] == cs[k].prob
  {
    seq(|cs|, k requires 0 <= k < |cs| => cs[k].prob)
  }
}

=== FILE: gini.dfy ===
/**
 * The Gini balance mode of TopKBalancedRouter. On the ascending-sorted
 * per-expert mean probabilities `p` of `n` experts it computes
 * `2 * sum((i + 1) * p[i]) / (n * sum(p)) - 1`.
 *
 * The usual sample Gini coefficient subtracts `(n + 1) / n` rather than 1:
 * it is 0 for a uniform distribution and grows as the load concentrates.
 * As written, the balance loss is `1 / n` at the uniform distribution, so
 * the perfectly balanced router is still penalised. Both versions are
 * modelled; the rest of the model treats the balance loss as an input of
 * a routing call.
 */
module Gini {
  import opened Common

  /** `sum((i + 1) * p[i])`: each entry weighted by its 1-based rank. */
  function RankWeightedSum(p: seq<real>): real
  {
    if |p| == 0 then 0.0 else RankWeightedSum(p[..|p| - 1]) + |p| as real * p[|p| - 1]
  }

  function Uniform(n: nat, x: real): (p: seq<real>)
    ensures |p| == n && forall i :: 0 <= i < n ==> p[i] == x
  {
    seq(n, _ => x)
  }

  /** Ascending order, as `torch.sort` leaves the means before the coefficient is taken. */
  predicate Sorted(p: seq<real>)
  {
    forall i, j :: 0 <= i < j < |p| ==> p[i] <= p[j]
  }

  predicate NonNegative(p: seq<real>)
  {
    forall i :: 0 <= i < |p| ==> p[i] >= 0.0
  }

  /** The common ratio `2 * sum((i + 1) * p[i]) / (n * sum(p))` of both forms of the coefficient. */
  function RankRatio(p: seq<real>): real
    requires |p| > 0 && Sum(p) != 0.0
  {
    WeightedRatio(RankWeightedSum(p), Sum(p), |p| as real)
  }

  /** `2 * w / (k * s)` for a rank-weighted sum `w`, a total `s` and a count `k`. */
  function WeightedRatio(w: real, s: real, k: real): real
    requires k > 0.0 && s != 0.0
  {
    2.0 * w / (k * s)
  }

  /**
   * The coefficient with the `(n + 1) / n` offset of the sample Gini. On
   * sorted non-negative loads it lies between 0 (all equal) and
   * `(n - 1) / n` (all on one expert).
   */
  function GiniCorrected(p: seq<real>): (g: real)
    requires |p| > 0 && Sum(p) != 0.0
    ensures Sorted(p) && NonNegative(p) ==> 0.0 <= g <= (|p| as real - 1.0) / |p| as real
  {
    var k := |p| as real;
    if Sorted(p) && NonNegative(p) then CorrectedBounds(p); RankRatio(p) - (k + 1.0) / k
    else RankRatio(p) - (k + 1.0) / k
  }

  lemma CorrectedBounds(p: seq<real>)
    requires |p| > 0 && Sum(p) != 0.0 && Sorted(p) && NonNegative(p)
    ensures var k := |p| as real;
            0.0 <= RankRatio(p) - (k + 1.0) / k <= (k - 1.0) / k
  {
    SumNonNegative(p);
    RankLowerBound(p);
    RankUpperBound(p);
    BoundsFromRanks(p);
  }

  lemma BoundsFromRanks(p: seq<real>)
    requires |p| > 0 && Sum(p) > 0.0
    requires 2.0 * RankWeightedSum(p) >= (|p| as real + 1.0) * Sum(p)
    requires RankWeightedSum(p) <= |p| as real * Sum(p)
    ensures var k := |p| as real;
            0.0 <= RankRatio(p) - (k + 1.0) / k <= (k - 1.0) / k
  {
    WeightedRatioBounds(RankWeightedSum(p), Sum(p), |p| as real);
  }

  lemma WeightedRatioBounds(w: real, s: real, k: real)
    requires k >= 1.0 && s > 0.0 && 2.0 * w >= (k + 1.0) * s && w <= k * s
    ensures 0.0 <= WeightedRatio(w, s, k) - (k + 1.0) / k <= (k - 1.0) / k
  {
    RatioBounds(WeightedRatio(w, s, k), 2.0 * w, s, k);
  }

  /**
   * The coefficient as the source computes it: the sample Gini plus the
   * constant `1 / n`. The offset depends on `n` only, so the two losses
   * have the same minimisers and the same gradient; only the reported
   * value shifts.
   */
  function GiniAsWritten(p: seq<real>): (g: real)
    requires |p| > 0 && Sum(p) != 0.0
    ensures g == GiniCorrected(p) + 1.0 / |p| as real
  {
    var k := |p| as real;
    OffsetSplit(k);
    RankRatio(p) - 1.0
  }

  lemma OffsetSplit(k: real)
    requires k > 0.0
    ensures (k + 1.0) / k == 1.0 + 1.0 / k
  {
  }

  /**
   * Over distributions of the same number of experts, the formula as
   * written and the corrected one order loads identically: every
   * difference between two loads is the same under both.
   */
  lemma AsWrittenRanksLikeCorrected(p: seq<real>, q: seq<real>)
    requires |p| > 0 && Sum(p) != 0.0 && |q| == |p| && Sum(q) != 0.0
    ensures GiniAsWritten(p) - GiniAsWritten(q) == GiniCorrected(p) - GiniCorrected(q)
    ensures GiniAsWritten(p) <= GiniAsWritten(q) <==> GiniCorrected(p) <= GiniCorrected(q)
  {
  }

  /** On sorted non-negative loads the rank weighting gives `2 * sum((i + 1) * p[i]) >= (n + 1) * sum(p)`. */
  lemma {:induction false} RankLowerBound(p: seq<real>)
    requires Sorted(p) && NonNegative(p)
    ensures 2.0 * RankWeightedSum(p) >= (|p| as real + 1.0) * Sum(p)
  {
    if |p| > 0 {
      var n := |p|;
      var q := p[..n - 1];
      var x := p[n - 1];
      PrefixOfSorted(p);
      RankLowerBound(q);
      SumAtMost(q, x);
      LowerStep(RankWeightedSum(q), Sum(q), RankWeightedSum(p), Sum(p), x, |q| as real, |p| as real);
    }
  }

  /** Dropping the last entry keeps the loads sorted and non-negative, and all at most that entry. */
  lemma PrefixOfSorted(p: seq<real>)
    requires |p| > 0 && Sorted(p) && NonNegative(p)
    ensures var q := p[..|p| - 1];
            Sorted(q) && NonNegative(q) && forall i :: 0 <= i < |q| ==> q[i] <= p[|p| - 1]
  {
  }

  /**
   * Appending the largest entry `x` at rank `k = m + 1` to loads of weighted
   * sum `w` and total `s` with `2 * w >= (m + 1) * s` gives a weighted sum
   * `w'` and total `s'` with `2 * w' >= (k + 1) * s'`.
   */
  lemma LowerStep(w: real, s: real, w': real, s': real, x: real, m: real, k: real)
    requires k == m + 1.0 && w' == w + k * x && s' == s + x
    requires 2.0 * w >= (m + 1.0) * s && s <= m * x
    ensures 2.0 * w' >= (k + 1.0) * s'
  {
    assert (k + 1.0) * (s + x) == k * s + s + (k + 1.0) * x;
  }

  /** Every rank is at most `n`, so `sum((i + 1) * p[i]) <= n * sum(p)` on non-negative loads. */
  lemma {:induction false} RankUpperBound(p: seq<real>)
    requires NonNegative(p)
    ensures RankWeightedSum(p) <= |p| as real * Sum(p)
  {
    if |p| > 0 {
      var n := |p|;
      var q := p[..n - 1];
      RankUpperBound(q);
      SumNonNegative(q);
      var k := n as real;
      assert (k - 1.0) * Sum(q) <= k * Sum(q);
      assert k * Sum(p) == k * Sum(q) + k * p[n - 1];
    }
  }

  lemma RatioBounds(r: real, a: real, s: real, k: real)
    requires k >= 1.0 && s >= 0.0 && s != 0.0 && (k + 1.0) * s <= a <= 2.0 * (k * s)
    requires r == a / (k * s)
    ensures 0.0 <= r - (k + 1.0) / k <= (k - 1.0) / k
  {
    var d := k * s;
    PositiveProduct(k, s);
    var q := (k + 1.0) / k;
    assert r * d == a;
    assert q * d == (k + 1.0) * s;
    if r < q {
      ScaleStrict(r, q, d);
    }
    if r > 2.0 {
      ScaleStrict(2.0, r, d);
    }
    assert 2.0 - q == (k - 1.0) / k;
  }

  lemma PositiveProduct(a: real, b: real)
    requires a > 0.0 && b > 0.0
    ensures a * b > 0.0
  {
  }

  lemma ScaleStrict(x: real, y: real, d: real)
    requires x < y && d > 0.0
    ensures x * d < y * d
  {
  }

  lemma {:induction false} UniformSums(n: nat, x: real)
    ensures Sum(Uniform(n, x)) == n as real * x
    ensures 2.0 * RankWeightedSum(Uniform(n, x)) == n as real * (n as real + 1.0) * x
  {
    if n > 0 {
      UniformSums(n - 1, x);
      assert Uniform(n, x)[..n - 1] == Uniform(n - 1, x);
      var m := (n - 1) as real;
      assert m * (m + 1.0) * x + 2.0 * (m + 1.0) * x == (m + 1.0) * (m + 2.0) * x;
    }
  }

  /** The common ratio `2 * sum((i + 1) * p[i]) / (n * sum(p))` is `(n + 1) / n` on a uniform vector. */
  lemma UniformRatio(n: nat, x: real)
    requires n > 0 && x > 0.0
    ensures Sum(Uniform(n, x)) != 0.0
    ensures 2.0 * RankWeightedSum(Uniform(n, x)) / (n as real * Sum(Uniform(n, x))) == (n as real + 1.0) / n as real
  {
    UniformSums(n, x);
    var k := n as real;
    var q := (k + 1.0) / k;
    assert q * k == k + 1.0;
    assert q * (k * (k * x)) == (q * k) * (k * x);
    assert k * (k * x) != 0.0;
    DivideBy(2.0 * RankWeightedSum(Uniform(n, x)), k * Sum(Uniform(n, x)), q);
  }

  lemma DivideBy(a: real, b: real, c: real)
    requires b != 0.0 && a == c * b
    ensures a / b == c
  {
  }

  /**
   * As written, a perfectly uniform load over `n` experts scores `1 / n`,
   * not 0.
   */
  lemma AsWrittenPenalisesUniform(n: nat, x: real)
    requires n > 0 && x > 0.0
    ensures Sum(Uniform(n, x)) != 0.0
    ensures GiniAsWritten(Uniform(n, x)) == 1.0 / n as real
  {
    UniformRatio(n, x);
    var k := n as real;
    assert (k + 1.0) / k == k / k + 1.0 / k;
    assert k / k == 1.0;
  }

  /** Four equally loaded experts: the loss as written is 0.25. */
  lemma AsWrittenFourExperts()
    ensures Sum(Uniform(4, 0.25)) != 0.0
    ensures GiniAsWritten(Uniform(4, 0.25)) == 0.25
  {
    AsWrittenPenalisesUniform(4, 0.25);
  }

  /** With the sample-Gini offset a uniform load scores exactly 0. */
  lemma CorrectedZeroAtUniform(n: nat, x: real)
    requires n > 0 && x > 0.0
    ensures Sum(Uniform(n, x)) != 0.0
    ensures GiniCorrected(Uniform(n, x)) == 0.0
  {
    UniformRatio(n, x);
  }

  /** All load on the last (largest, after sorting) expert. */
  function OneHot(n: nat): (p: seq<real>)
    requires n > 0
    ensures |p| == n && p[n - 1] == 1.0
    ensures forall i :: 0 <= i < n - 1 ==> p[i] == 0.0
  {
    seq(n, i => if i == n - 1 then 1.0 else 0.0)
  }

  lemma {:induction false} ZeroSums(n: nat)
    ensures Sum(Uniform(n, 0.0)) == 0.0 && RankWeightedSum(Uniform(n, 0.0)) == 0.0
  {
    if n > 0 {
      ZeroSums(n - 1);
      assert Uniform(n, 0.0)[..n - 1] == Uniform(n - 1, 0.0);
    }
  }

  /**
   * With the sample-Gini offset, a load concentrated on one of `n >= 2`
   * experts scores `(n - 1) / n`, strictly above the uniform score.
   */
  lemma CorrectedPositiveWhenConcentrated(n: nat)
    requires n >= 2
    ensures Sum(OneHot(n)) == 1.0
    ensures GiniCorrected(OneHot(n)) == (n as real - 1.0) / n as real
    ensures GiniCorrected(OneHot(n)) > 0.0
  {
    var p := OneHot(n);
    ZeroSums(n - 1);
    assert p[..n - 1] == Uniform(n - 1, 0.0);
    assert RankWeightedSum(p) == n as real;
    var k := n as real;
    assert 2.0 * k / (k * 1.0) == 2.0;
    assert 2.0 - (k + 1.0) / k == (k - 1.0) / k;
  }
}

=== FILE: hierarchical.dfy ===
/**
 * The index arithmetic of HierarchicalRouter: experts are split into
 * `num_groups` groups of `num_experts // num_groups` experts each, and a
 * token's composed probability (group probability times intra-group
 * probability) is scattered into its full per-expert vector at the group's
 * offset. The group and intra-group networks, their softmaxes and the
 * top-group selection are inputs.
 */
module Hierarchical {

  /** `num_experts // num_groups`. */
  function ExpertsPerGroup(numExperts: nat, numGroups: nat): (epg: nat)
    requires numGroups > 0
    ensures epg * numGroups <= numExperts < (epg + 1) * numGroups
  {
    numExperts / numGroups
  }

  /** One of a token's selected groups with its probability and intra-group distribution. */
  datatype GroupPick = GroupPick(group: nat, prob: real, intra: seq<real>)

  predicate InGroup(x: nat, g: nat, epg: nat)
  {
    g * epg <= x < g * epg + epg
  }

  /**
   * Writes one selected group's composed probabilities into `v`: entry
   * `g * epg + i` becomes `prob * intra[i]` for every `i < epg` that is a
   * valid expert index; every other entry keeps its value.
   */
  function ScatterGroup(v: seq<real>, pick: GroupPick, epg: nat): (v': seq<real>)
    requires |pick.intra| == epg
    ensures |v'| == |v|
    ensures forall x :: 0 <= x < |v| && InGroup(x, pick.group, epg) ==> v'[x] == pick.prob * pick.intra[x - pick.group * epg]
    ensures forall x :: 0 <= x < |v| && !InGroup(x, pick.group, epg) ==> v'[x] == v[x]
  {
    seq(|v|, x requires 0 <= x < |v| =>
      if InGroup(x, pick.group, epg) then pick.prob * pick.intra[x - pick.group * epg] else v[x])
  }

  predicate PicksFit(picks: seq<GroupPick>, epg: nat)
  {
    forall j :: 0 <= j < |picks| ==> |picks[j].intra| == epg
  }

  /** A token's composed probability vector: zeros, then each selected group written in rank order. */
  function ScatterToken(numExperts: nat, picks: seq<GroupPick>, epg: nat): (v: seq<real>)
    requires PicksFit(picks, epg)
    ensures |v| == numExperts
  {
    if |picks| == 0 then seq(numExperts, _ => 0.0)
    else ScatterGroup(ScatterToken(numExperts, picks[..|picks| - 1], epg), picks[|picks| - 1], epg)
  }

  /**
   * An expert outside every selected group's index range receives nothing:
   * its composed probability stays 0.
   */
  lemma {:induction false} OutsideSelectedGroupsIsZero(numExperts: nat, picks: seq<GroupPick>, epg: nat, x: nat)
    requires PicksFit(picks, epg) && x < numExperts
    requires forall j :: 0 <= j < |picks| ==> !InGroup(x, picks[j].group, epg)
    ensures ScatterToken(numExperts, picks, epg)[x] == 0.0
  {
    if |picks| > 0 {
      OutsideSelectedGroupsIsZero(numExperts, picks[..|picks| - 1], epg, x);
    }
  }

  /**
   * An expert inside the range of a selected group that no later rank
   * selects again holds that group's probability times its intra-group
   * probability.
   */
  lemma {:induction false} InsideSelectedGroup(numExperts: nat, picks: seq<GroupPick>, epg: nat, j: nat, x: nat)
    requires PicksFit(picks, epg) && x < numExperts && j < |picks|
    requires InGroup(x, picks[j].group, epg)
    requires forall l :: j < l < |picks| ==> picks[l].group != picks[j].group
    ensures ScatterToken(numExperts, picks, epg)[x] == picks[j].prob * picks[j].intra[x - picks[j].group * epg]
  {
    var n := |picks| - 1;
    var prev := ScatterToken(numExperts, picks[..n], epg);
    assert ScatterToken(numExperts, picks, epg) == ScatterGroup(prev, picks[n], epg);
    if j < n {
      assert picks[..n][j] == picks[j];
      InsideSelectedGroup(numExperts, picks[..n], epg, j, x);
      GroupRangesDisjoint(picks[j].group, picks[n].group, epg, x);
      assert ScatterGroup(prev, picks[n], epg)[x] == prev[x];
    }
  }

  lemma GroupRangesDisjoint(g: nat, h: nat, epg: nat, x: nat)
    requires g != h && InGroup(x, g, epg)
    ensures !InGroup(x, h, epg)
  {
    if g < h {
      assert g * epg + epg == (g + 1) * epg;
      MulMonotone(g + 1, h, epg);
    } else {
      assert h * epg + epg == (h + 1) * epg;
      MulMonotone(h + 1, g, epg);
    }
  }

  lemma GroupEnd(g: nat, numGroups: nat, epg: nat)
    requires g < numGroups
    ensures g * epg + epg <= numGroups * epg
  {
    MulMonotone(g + 1, numGroups, epg);
    assert (g + 1) * epg == g * epg + epg;
  }

  lemma MulMonotone(a: nat, b: nat, c: nat)
    requires a <= b
    ensures a * c <= b * c
  {
  }

  /**
   * Every index a valid group writes is a valid expert, so the source's
   * `expert_idx < num_experts` guard never rejects a write.
   */
  lemma GroupRangeInBounds(numExperts: nat, numGroups: nat, g: nat, i: nat)
    requires numGroups > 0 && g < numGroups
    requires i < ExpertsPerGroup(numExperts, numGroups)
    ensures g * ExpertsPerGroup(numExperts, numGroups) + i < numExperts
  {
    var epg := ExpertsPerGroup(numExperts, numGroups);
    MulMonotone(g + 1, numGroups, epg);
    assert (g + 1) * epg == g * epg + epg;
    assert epg * numGroups == numGroups * epg;
  }

  /**
   * Experts from index `num_groups * experts_per_group` up (the remainder
   * when the groups do not divide the experts evenly) never receive any
   * probability.
   */
  lemma RemainderExpertsUnreachable(numExperts: nat, numGroups: nat, picks: seq<GroupPick>, x: nat)
    requires numGroups > 0
    requires PicksFit(picks, ExpertsPerGroup(numExperts, numGroups))
    requires forall j :: 0 <= j < |picks| ==> picks[j].group < numGroups
    requires numGroups * ExpertsPerGroup(numExperts, numGroups) <= x < numExperts
    ensures ScatterToken(numExperts, picks, ExpertsPerGroup(numExperts, numGroups))[x] == 0.0
  {
    var epg := ExpertsPerGroup(numExperts, numGroups);
    forall j | 0 <= j < |picks|
      ensures !InGroup(x, picks[j].group, epg)
    {
      GroupEnd(picks[j].group, numGroups, epg);
    }
    OutsideSelectedGroupsIsZero(numExperts, picks, epg, x);
  }

  /** Four groups over eight experts: group 2 covers exactly experts 4 and 5. */
  lemma GroupTwoOfFour(x: nat)
    requires x < 8
    ensures InGroup(x, 2, ExpertsPerGroup(8, 4)) <==> x == 4 || x == 5
  {
  }

  /**
   * With four groups over eight experts, a token routed to group 2 alone
   * has non-zero composed probability only on experts 4 and 5.
   */
  lemma GroupTwoOfFourScatter(pick: GroupPick, x: nat)
    requires pick.group == 2 && |pick.intra| == 2 && x < 8
    requires x != 4 && x != 5
    ensures ScatterToken(8, [pick], ExpertsPerGroup(8, 4))[x] == 0.0
  {
    OutsideSelectedGroupsIsZero(8, [pick], 2, x);
  }
}

=== FILE: press.dfy ===
/**
 * MoERouterPress: one lazily created router per layer, the per-layer
 * compression statistics, the `compress` step (route, pick the dominant
 * expert, apply its strategy, account for it), `get_stats` and
 * `reset_stats`.
 *
 * The learned part of a routing call arrives as a `RouterOutput`: the
 * call's selections and predictor output, its auxiliary loss and its
 * routing probabilities. `compress` can raise part-way through (an expert
 * index with no strategy, a division by an empty cache length); the model
 * returns the state at the point of the raise.
 */
module Press {
  import opened Common
  import opened RouterStats
  import opened Routers
  import opened Compression
  import opened Probs

  /** A layer's `expert_compression_stats`: per expert, times dominant and summed ratios and hit rates. */
  datatype LayerStats = LayerStats(usage: seq<nat>, ratios: seq<real>, hitRates: seq<real>)
  {
    predicate Valid(numExperts: nat)
    {
      |usage| == numExperts && |ratios| == numExperts && |hitRates| == numExperts
    }

    /**
     * Each expert's summed compression ratios and hit rates lie between 0
     * and the number of times it was dominant, since every step adds at
     * most 1 to each.
     */
    predicate Bounded()
      requires Valid(|usage|)
    {
      forall e :: 0 <= e < |usage| ==>
        0.0 <= ratios[e] <= usage[e] as real && 0.0 <= hitRates[e] <= usage[e] as real
    }
  }

  function ZeroStats(numExperts: nat): (st: LayerStats)
    ensures st.Valid(numExperts) && st.Bounded()
    ensures forall e :: 0 <= e < numExperts ==> st.usage[e] == 0 && st.ratios[e] == 0.0 && st.hitRates[e] == 0.0
  {
    LayerStats(Zeros(numExperts), RealZeros(numExperts), RealZeros(numExperts))
  }

  datatype Layer = Layer(router: Router, stats: LayerStats)

  /** The press's fields that matter to routing and compression. */
  datatype PressConfig = PressConfig(routerType: string, params: RouterParams, compressionRatio: real)
  {
    predicate Valid() { params.Valid(KindOf(routerType)) }
  }

  datatype Press = Press(config: PressConfig, layers: map<nat, Layer>, totalAuxLoss: real, forwardCount: nat)
  {
    predicate LayerFits(l: Layer)
    {
      && l.router.Valid()
      && l.router.config.numExperts == config.params.numExperts
      && l.stats.Valid(config.params.numExperts)
    }

    predicate Valid()
    {
      config.Valid() && forall i :: i in layers ==> LayerFits(layers[i])
    }

    /** Every layer's compression statistics are `Bounded`. */
    predicate StatsBounded()
      requires Valid()
    {
      forall i :: i in layers ==> layers[i].stats.Bounded()
    }
  }

  /** `__post_init__`: no routers yet, no loss, no calls. */
  function NewPress(config: PressConfig): (p: Press)
    requires config.Valid()
    ensures p.Valid() && p.StatsBounded()
    ensures p.layers == map[] && p.totalAuxLoss == 0.0 && p.forwardCount == 0
  {
    Press(config, map[], 0.0, 0)
  }

  /** The router and zeroed statistics `_get_router` registers for a new layer. */
  function NewLayer(config: PressConfig): (l: Layer)
    requires config.Valid()
    ensures l.router == NewRouter(KindOf(config.routerType), config.params)
    ensures l.stats == ZeroStats(config.params.numExperts)
  {
    Layer(NewRouter(KindOf(config.routerType), config.params), ZeroStats(config.params.numExperts))
  }

  /**
   * `_get_router`: a layer seen before keeps its router and statistics; a
   * new layer gets a fresh router of the configured type and zeroed
   * statistics. Nothing else changes.
   */
  function GetRouter(p: Press, layer: nat): (p': Press)
    requires p.Valid()
    ensures p'.Valid() && layer in p'.layers
    ensures p'.layers.Keys == p.layers.Keys + {layer}
    ensures layer in p.layers ==> p' == p
    ensures layer !in p.layers ==> p'.layers[layer] == NewLayer(p.config)
    ensures forall i :: i in p.layers ==> p'.layers[i] == p.layers[i]
    ensures p'.config == p.config && p'.totalAuxLoss == p.totalAuxLoss && p'.forwardCount == p.forwardCount
    ensures p.StatsBounded() ==> p'.StatsBounded()
  {
    if layer in p.layers then p
    else p.(layers := p.layers[layer := NewLayer(p.config)])
  }

  /** The press with `layer` set to `l`; every other layer and every total unchanged. */
  function WithLayer(p: Press, layer: nat, l: Layer): (p': Press)
    requires p.Valid() && p.LayerFits(l)
    ensures p'.Valid() && layer in p'.layers && p'.layers[layer] == l
    ensures p'.config == p.config && p'.totalAuxLoss == p.totalAuxLoss && p'.forwardCount == p.forwardCount
    ensures p'.layers.Keys == p.layers.Keys + {layer}
    ensures forall i :: i in p.layers && i != layer ==> p'.layers[i] == p.layers[i]
  {
    p.(layers := p.layers[layer := l])
  }

  /** Looking a layer up twice is the same as looking it up once. */
  lemma GetRouterIdempotent(p: Press, layer: nat)
    requires p.Valid()
    ensures GetRouter(GetRouter(p, layer), layer) == GetRouter(p, layer)
  {
  }

  /** `_compute_cache_hit_rate`: the compressed length over 1000, capped at 1. */
  function CacheHitRate(compressedLen: nat): (h: real)
    ensures 0.0 <= h <= 1.0
    ensures compressedLen >= 1000 ==> h == 1.0
    ensures compressedLen <= 1000 ==> h * 1000.0 == compressedLen as real
  {
    if compressedLen as real / 1000.0 >= 1.0 then 1.0 else compressedLen as real / 1000.0
  }

  /** `(original - compressed) / original`: the share of positions removed. */
  function CompressionRatio(original: nat, compressed: nat): (c: real)
    requires 0 < original && compressed <= original
    ensures 0.0 <= c <= 1.0
    ensures c * original as real == (original - compressed) as real
    ensures c == 0.0 <==> compressed == original
  {
    (original - compressed) as real / original as real
  }

  /** What the router's learned part produced for one `compress` call. */
  datatype RouterOutput = RouterOutput(call: RoutingCall, auxLoss: real, probs: seq<seq<seq<real>>>)

  /**
   * The output fits the router: the call fits, and the probabilities have
   * one entry per expert for each of the call's `batch * seq_len` tokens,
   * of which there is at least one.
   */
  predicate OutputFits(r: Router, out: RouterOutput)
    requires r.Valid()
  {
    && CallFits(r, out.call)
    && out.call.batch > 0 && out.call.seqLen > 0
    && Shaped(out.probs, out.call.batch, out.call.seqLen, r.config.numExperts)
  }

  /** `argmax(router_probs.mean(dim=[0, 1]))`: the expert whose mean probability is highest, the first on ties. */
  function Dominant(r: Router, out: RouterOutput): (e: nat)
    requires r.Valid() && OutputFits(r, out)
    ensures e < r.config.numExperts
    ensures var m := ExpertMeans(out.probs, out.call.batch, out.call.seqLen, r.config.numExperts);
            forall f :: 0 <= f < |m| ==> m[f] <= m[e] && (f < e ==> m[f] < m[e])
  {
    ArgMax(ExpertMeans(out.probs, out.call.batch, out.call.seqLen, r.config.numExperts))
  }

  /** The selective strategy's position scores for this output. */
  function Scores(r: Router, out: RouterOutput): (s: seq<real>)
    requires r.Valid() && OutputFits(r, out)
    ensures |s| == out.call.seqLen
  {
    ImportanceScores(out.probs, out.call.batch, out.call.seqLen, r.config.numExperts)
  }

  /** The router a `compress` call on `layer` routes with. */
  function RouterFor(p: Press, layer: nat): (r: Router)
    requires p.Valid()
    ensures r.Valid() && r.config.numExperts == p.config.params.numExperts
  {
    GetRouter(p, layer).layers[layer].router
  }

  datatype Outcome<T> =
    | Compressed(press: Press, keys: seq<T>, values: seq<T>)
    | Raised(press: Press)

  /** The positions a `compress` call keeps out of a cache of `n`. */
  function KeptFor(p: Press, layer: nat, out: RouterOutput, n: nat): (kept: seq<nat>)
    requires p.Valid() && OutputFits(RouterFor(p, layer), out)
    requires Dominant(RouterFor(p, layer), out) < 4
    ensures StrictlyIncreasing(kept)
    ensures forall i :: 0 <= i < |kept| ==> kept[i] < n
  {
    var r := RouterFor(p, layer);
    KeptPositions(StrategyFor(Dominant(r, out)), n, p.config.compressionRatio, Scores(r, out))
  }

  /** The accounting of one compression: usage, summed ratio and summed hit rate of the dominant expert. */
  function Account(st: LayerStats, dom: nat, ratio: real, hit: real): (st': LayerStats)
    requires st.Valid(|st.usage|) && dom < |st.usage|
    ensures st'.Valid(|st.usage|)
    ensures st'.usage == st.usage[dom := st.usage[dom] + 1]
    ensures st'.ratios == st.ratios[dom := st.ratios[dom] + ratio]
    ensures st'.hitRates == st.hitRates[dom := st.hitRates[dom] + hit]
  {
    LayerStats(st.usage[dom := st.usage[dom] + 1],
               st.ratios[dom := st.ratios[dom] + ratio],
               st.hitRates[dom := st.hitRates[dom] + hit])
  }

  /**
   * The routing half of `compress`: the layer's router is looked up (or
   * created) and run, and the auxiliary loss and the call count are
   * accumulated. The layer's compression statistics are not touched.
   */
  function Route(p: Press, layer: nat, out: RouterOutput): (p': Press)
    requires p.Valid() && OutputFits(RouterFor(p, layer), out)
    ensures p'.Valid() && layer in p'.layers
    ensures p'.config == p.config
    ensures p'.forwardCount == p.forwardCount + 1
    ensures p'.totalAuxLoss == p.totalAuxLoss + out.auxLoss
    ensures p'.layers.Keys == p.layers.Keys + {layer}
    ensures forall i :: i in p.layers && i != layer ==> p'.layers[i] == p.layers[i]
    ensures p'.layers[layer].router == Forward(RouterFor(p, layer), out.call)
    ensures p'.layers[layer].router.config == RouterFor(p, layer).config
    ensures p'.layers[layer].stats == GetRouter(p, layer).layers[layer].stats
  {
    var p1 := GetRouter(p, layer);
    var l1 := p1.layers[layer];
    var p2 := WithLayer(p1, layer, l1.(router := Forward(l1.router, out.call)));
    Press(p2.config, p2.layers, p2.totalAuxLoss + out.auxLoss, p2.forwardCount + 1)
  }

  /** The cache-aware router hears the hit rate of the step; other routers do not. */
  function ReportHit(r: Router, dom: nat, hit: real): (r': Router)
    requires r.Valid()
    ensures r'.Valid() && r'.config == r.config
    ensures !r.variant.CacheAware? ==> r' == r
    ensures r.variant.CacheAware? ==> r'.variant.CacheAware?
    ensures r.variant.CacheAware? && dom < r.config.numExperts ==> r'.variant.CacheAware? && r'.variant.hitRates[dom] == hit
  {
    if r.variant.CacheAware? then UpdateCacheUsage(r, dom, hit) else r
  }

  /**
   * The accounting half of a `compress` step that did not raise: the
   * dominant expert's usage, summed ratio and summed hit rate grow, and the
   * cache-aware router is told the hit rate.
   */
  function Settle(p: Press, layer: nat, dom: nat, original: nat, compressed: nat): (p': Press)
    requires p.Valid() && layer in p.layers && dom < p.config.params.numExperts
    requires 0 < original && compressed <= original
    ensures p'.Valid()
    ensures p' == p.(layers := p'.layers)
    ensures p'.layers.Keys == p.layers.Keys
    ensures forall i :: i in p.layers && i != layer ==> p'.layers[i] == p.layers[i]
    ensures p'.layers[layer].router.config == p.layers[layer].router.config
    ensures p'.layers[layer].stats
            == Account(p.layers[layer].stats, dom, CompressionRatio(original, compressed), CacheHitRate(compressed))
  {
    var l := p.layers[layer];
    var hit := CacheHitRate(compressed);
    var st := Account(l.stats, dom, CompressionRatio(original, compressed), hit);
    WithLayer(p, layer, Layer(ReportHit(l.router, dom, hit), st))
  }

  /** The usage count of the dominant expert rises before the ratio is computed. */
  function CountDominant(p: Press, layer: nat, dom: nat): (p': Press)
    requires p.Valid() && layer in p.layers && dom < p.config.params.numExperts
    ensures p'.Valid()
    ensures p' == p.(layers := p'.layers)
    ensures p'.layers.Keys == p.layers.Keys
    ensures forall i :: i in p.layers && i != layer ==> p'.layers[i] == p.layers[i]
    ensures p'.layers[layer].router == p.layers[layer].router
    ensures var st := p.layers[layer].stats;
            p'.layers[layer].stats == st.(usage := st.usage[dom := st.usage[dom] + 1])
  {
    var l := p.layers[layer];
    WithLayer(p, layer, l.(stats := l.stats.(usage := l.stats.usage[dom := l.stats.usage[dom] + 1])))
  }

  /**
   * `compress`. Routing and loss accounting happen first. A dominant expert
   * without a strategy (index 4 or more) raises there. Otherwise the
   * strategy cuts keys and values at the same positions, the expert's usage
   * rises by 1, and an empty cache raises on the ratio's division; a
   * non-empty one adds the ratio and the hit rate and, for the cache-aware
   * router, reports the hit rate back to it.
   */
  function Compress<T>(p: Press, layer: nat, out: RouterOutput, keys: seq<T>, values: seq<T>): (o: Outcome<T>)
    requires p.Valid() && |keys| == |values|
    requires OutputFits(RouterFor(p, layer), out)
    ensures o.press.Valid()
    ensures o.press.config == p.config
    ensures o.press.forwardCount == p.forwardCount + 1
    ensures o.press.totalAuxLoss == p.totalAuxLoss + out.auxLoss
    ensures o.press.layers.Keys == p.layers.Keys + {layer}
    ensures forall i :: i in p.layers && i != layer ==> o.press.layers[i] == p.layers[i]
    ensures o.press.layers[layer].router.config == RouterFor(p, layer).config
    ensures o.Raised? <==> Dominant(RouterFor(p, layer), out) >= 4 || |keys| == 0
    ensures o.Compressed? ==> 0 < |keys| && |o.keys| <= |keys|
    ensures o.Compressed? ==>
              var kept := KeptFor(p, layer, out, |keys|);
              && |o.keys| == |o.values| == |kept| <= |keys|
              && forall i :: 0 <= i < |kept| ==> o.keys[i] == keys[kept[i]] && o.values[i] == values[kept[i]]
  {
    var routed := Route(p, layer, out);
    var r := RouterFor(p, layer);
    var dom := Dominant(r, out);
    if dom >= 4 then Raised(routed)
    else
      var kv := ApplyCompression(StrategyFor(dom), keys, values, p.config.compressionRatio, Scores(r, out));
      if |keys| == 0 then Raised(CountDominant(routed, layer, dom))
      else Compressed(Settle(routed, layer, dom, |keys|, |kv.0|), kv.0, kv.1)
  }

  /** The compression statistics `layer` has when a `compress` call on it starts: zeroed for a new layer. */
  function StatsBefore(p: Press, layer: nat): (st: LayerStats)
    requires p.Valid()
    ensures st.Valid(p.config.params.numExperts)
    ensures layer in p.layers ==> st == p.layers[layer].stats
    ensures layer !in p.layers ==> st == ZeroStats(p.config.params.numExperts)
  {
    GetRouter(p, layer).layers[layer].stats
  }

  /**
   * A `compress` call that did not raise counts one more use of the
   * dominant expert on its layer and adds the step's compression ratio and
   * cache hit rate to that expert's sums.
   */
  lemma CompressAccounts<T>(p: Press, layer: nat, out: RouterOutput, keys: seq<T>, values: seq<T>)
    requires p.Valid() && |keys| == |values|
    requires OutputFits(RouterFor(p, layer), out)
    requires Dominant(RouterFor(p, layer), out) < 4 && |keys| > 0
    ensures Compress(p, layer, out, keys, values).Compressed?
    ensures var o := Compress(p, layer, out, keys, values);
            o.press.layers[layer].stats
            == Account(StatsBefore(p, layer), Dominant(RouterFor(p, layer), out),
                       CompressionRatio(|keys|, |o.keys|), CacheHitRate(|o.keys|))
  {
    var routed := Route(p, layer, out);
    var r := RouterFor(p, layer);
    var dom := Dominant(r, out);
    var kv := ApplyCompression(StrategyFor(dom), keys, values, p.config.compressionRatio, Scores(r, out));
    assert Compress(p, layer, out, keys, values) == Compressed(Settle(routed, layer, dom, |keys|, |kv.0|), kv.0, kv.1);
  }

  /**
   * A dominant expert without a strategy raises after routing and before
   * any statistic moves: the layer holds the router that ran the call and
   * the statistics it started with.
   */
  lemma CompressWithoutStrategy<T>(p: Press, layer: nat, out: RouterOutput, keys: seq<T>, values: seq<T>)
    requires p.Valid() && |keys| == |values|
    requires OutputFits(RouterFor(p, layer), out)
    requires Dominant(RouterFor(p, layer), out) >= 4
    ensures Compress(p, layer, out, keys, values).Raised?
    ensures Compress(p, layer, out, keys, values).press.layers[layer]
            == Layer(Forward(RouterFor(p, layer), out.call), StatsBefore(p, layer))
  {
  }

  /**
   * An empty cache raises on the ratio's division, after the dominant
   * expert's usage has already risen by one: the layer is the one routing
   * left (its router has run the call, see `Route`) with that single
   * increment and nothing else.
   */
  lemma CompressEmptyCache<T>(p: Press, layer: nat, out: RouterOutput, keys: seq<T>, values: seq<T>)
    requires p.Valid() && |keys| == |values|
    requires OutputFits(RouterFor(p, layer), out)
    requires Dominant(RouterFor(p, layer), out) < 4 && |keys| == 0
    ensures Compress(p, layer, out, keys, values).Raised?
    ensures var routed, dom := Route(p, layer, out).layers[layer], Dominant(RouterFor(p, layer), out);
            && dom < |routed.stats.usage|
            && Compress(p, layer, out, keys, values).press.layers[layer]
               == Layer(routed.router, routed.stats.(usage := routed.stats.usage[dom := routed.stats.usage[dom] + 1]))
  {
    EmptyCacheCounts(p, layer, out, keys, values);
  }

  lemma EmptyCacheCounts<T>(p: Press, layer: nat, out: RouterOutput, keys: seq<T>, values: seq<T>)
    requires p.Valid() && |keys| == |values|
    requires OutputFits(RouterFor(p, layer), out)
    requires Dominant(RouterFor(p, layer), out) < 4 && |keys| == 0
    ensures Compress(p, layer, out, keys, values) == Raised(CountDominant(Route(p, layer, out), layer, Dominant(RouterFor(p, layer), out)))
  {
  }

  /**
   * A successful call leaves the layer with the router that ran the call,
   * told the step's cache hit rate when it is the cache-aware router.
   */
  lemma CompressReportsHit<T>(p: Press, layer: nat, out: RouterOutput, keys: seq<T>, values: seq<T>)
    requires p.Valid() && |keys| == |values|
    requires OutputFits(RouterFor(p, layer), out)
    requires Dominant(RouterFor(p, layer), out) < 4 && |keys| > 0
    ensures Compress(p, layer, out, keys, values).Compressed?
    ensures var o := Compress(p, layer, out, keys, values);
            o.press.layers[layer].router
            == ReportHit(Forward(RouterFor(p, layer), out.call), Dominant(RouterFor(p, layer), out), CacheHitRate(|o.keys|))
  {
    var r := RouterFor(p, layer);
    var dom := Dominant(r, out);
    var kv := ApplyCompression(StrategyFor(dom), keys, values, p.config.compressionRatio, Scores(r, out));
    assert Compress(p, layer, out, keys, values) == Compressed(Settle(Route(p, layer, out), layer, dom, |keys|, |kv.0|), kv.0, kv.1);
  }

  /**
   * With at most four experts every dominant expert has a strategy, so
   * `compress` raises exactly when the cache is empty.
   */
  lemma FourExpertsNeverLackAStrategy<T>(p: Press, layer: nat, out: RouterOutput, keys: seq<T>, values: seq<T>)
    requires p.Valid() && |keys| == |values|
    requires OutputFits(RouterFor(p, layer), out)
    requires p.config.params.numExperts <= 4
    ensures Compress(p, layer, out, keys, values).Raised? <==> |keys| == 0
  {
    assert RouterFor(p, layer).config.numExperts == p.config.params.numExperts;
  }

  /** `compress` keeps every layer's compression statistics `Bounded`. */
  lemma CompressKeepsStatsBounded<T>(p: Press, layer: nat, out: RouterOutput, keys: seq<T>, values: seq<T>)
    requires p.Valid() && p.StatsBounded() && |keys| == |values|
    requires OutputFits(RouterFor(p, layer), out)
    ensures Compress(p, layer, out, keys, values).press.StatsBounded()
  {
    var o := Compress(p, layer, out, keys, values);
    var routed := Route(p, layer, out);
    RouteKeepsBounded(p, layer, out);
    var r := RouterFor(p, layer);
    var dom := Dominant(r, out);
    if dom >= 4 {
      assert o == Raised(routed);
    } else {
      var kv := ApplyCompression(StrategyFor(dom), keys, values, p.config.compressionRatio, Scores(r, out));
      if |keys| == 0 {
        assert o == Raised(CountDominant(routed, layer, dom));
        CountKeepsPressBounded(routed, layer, dom);
      } else {
        assert o == Compressed(Settle(routed, layer, dom, |keys|, |kv.0|), kv.0, kv.1);
        SettleKeepsBounded(routed, layer, dom, |keys|, |kv.0|);
      }
    }
  }

  lemma CountKeepsPressBounded(p: Press, layer: nat, dom: nat)
    requires p.Valid() && p.StatsBounded() && layer in p.layers && dom < p.config.params.numExperts
    ensures CountDominant(p, layer, dom).StatsBounded()
  {
    var before := p.layers[layer].stats;
    assert dom < |before.usage| && before.Bounded();
    CountKeepsBounded(before, dom);
    OnlyLayerChanged(p, CountDominant(p, layer, dom), layer);
  }

  lemma SettleKeepsBounded(p: Press, layer: nat, dom: nat, original: nat, compressed: nat)
    requires p.Valid() && p.StatsBounded() && layer in p.layers && dom < p.config.params.numExperts
    requires 0 < original && compressed <= original
    ensures Settle(p, layer, dom, original, compressed).StatsBounded()
  {
    var before := p.layers[layer].stats;
    assert dom < |before.usage| && before.Bounded();
    AccountKeepsBounded(before, dom, CompressionRatio(original, compressed), CacheHitRate(compressed));
    OnlyLayerChanged(p, Settle(p, layer, dom, original, compressed), layer);
  }

  lemma RouteKeepsBounded(p: Press, layer: nat, out: RouterOutput)
    requires p.Valid() && p.StatsBounded() && OutputFits(RouterFor(p, layer), out)
    ensures Route(p, layer, out).StatsBounded()
  {
    assert GetRouter(p, layer).StatsBounded();
  }

  lemma OnlyLayerChanged(p: Press, q: Press, layer: nat)
    requires p.Valid() && q.Valid() && p.StatsBounded()
    requires q.layers.Keys == p.layers.Keys && layer in q.layers
    requires forall i :: i in p.layers && i != layer ==> q.layers[i] == p.layers[i]
    requires q.layers[layer].stats.Bounded()
    ensures q.StatsBounded()
  {
  }

  lemma AccountKeepsBounded(st: LayerStats, dom: nat, c: real, h: real)
    requires st.Valid(|st.usage|) && st.Bounded() && dom < |st.usage|
    requires 0.0 <= c <= 1.0 && 0.0 <= h <= 1.0
    ensures Account(st, dom, c, h).Bounded()
  {
  }

  lemma CountKeepsBounded(st: LayerStats, dom: nat)
    requires st.Valid(|st.usage|) && st.Bounded() && dom < |st.usage|
    ensures st.(usage := st.usage[dom := st.usage[dom] + 1]).Bounded()
  {
  }

  /** What `get_stats` reports for one layer. */
  datatype LayerReport = LayerReport(usageRatios: seq<real>, routing: RoutingStats, compression: LayerStats)

  datatype PressReport = PressReport(totalAuxLoss: real, avgAuxLoss: real, forwardCount: nat, layers: map<nat, LayerReport>)

  /**
   * `get_stats`: the summed auxiliary loss, its average over the calls
   * (over one call when there were none), and for every layer its router's
   * usage ratios and counters and its compression statistics.
   */
  function GetStats(p: Press): (rep: PressReport)
    requires p.Valid()
    ensures rep.totalAuxLoss == p.totalAuxLoss && rep.forwardCount == p.forwardCount
    ensures rep.avgAuxLoss * Max(1, p.forwardCount) as real == p.totalAuxLoss
    ensures p.forwardCount == 0 ==> rep.avgAuxLoss == p.totalAuxLoss
    ensures rep.layers.Keys == p.layers.Keys
    ensures forall i :: i in p.layers ==>
              && rep.layers[i].routing == p.layers[i].router.stats
              && rep.layers[i].usageRatios == UsageRatios(p.layers[i].router.stats)
              && rep.layers[i].compression == p.layers[i].stats
  {
    var reports := map i | i in p.layers ::
      LayerReport(UsageRatios(p.layers[i].router.stats), p.layers[i].router.stats, p.layers[i].stats);
    PressReport(p.totalAuxLoss, p.totalAuxLoss / Max(1, p.forwardCount) as real, p.forwardCount, reports)
  }

  /**
   * `reset_stats`: loss and call count back to zero, every router's
   * counters reset (its histories survive) and every layer's compression
   * statistics zeroed. The layers themselves stay registered.
   */
  function Reset(p: Press): (p': Press)
    requires p.Valid()
    ensures p'.Valid() && p'.StatsBounded()
    ensures p'.config == p.config
    ensures p'.totalAuxLoss == 0.0 && p'.forwardCount == 0
    ensures p'.layers.Keys == p.layers.Keys
    ensures forall i :: i in p.layers ==>
              && p'.layers[i].router.config == p.layers[i].router.config
              && p'.layers[i].router.variant == p.layers[i].router.variant
              && p'.layers[i].router.stats == Fresh(p.config.params.numExperts)
              && p'.layers[i].stats == ZeroStats(p.config.params.numExperts)
  {
    var n := p.config.params.numExperts;
    var layers := map i | i in p.layers :: Layer(ResetRouter(p.layers[i].router), ZeroStats(n));
    Press(p.config, layers, 0.0, 0)
  }

  /** Resetting twice is the same as resetting once. */
  lemma ResetIdempotent(p: Press)
    requires p.Valid()
    ensures Reset(Reset(p)) == Reset(p)
  {
    var r1 := Reset(p);
    var r2 := Reset(r1);
    assert r2.layers.Keys == r1.layers.Keys;
    forall i | i in r1.layers
      ensures r2.layers[i] == r1.layers[i]
    {
    }
  }

  /** Straight after a reset, `get_stats` reports no loss, no calls and all-zero ratios. */
  lemma StatsAfterReset(p: Press)
    requires p.Valid()
    ensures var rep := GetStats(Reset(p));
            && rep.totalAuxLoss == 0.0 && rep.avgAuxLoss == 0.0 && rep.forwardCount == 0
            && forall i, e :: i in rep.layers && 0 <= e < |rep.layers[i].usageRatios| ==>
                 rep.layers[i].usageRatios[e] == 0.0 && rep.layers[i].compression.usage[e] == 0
  {
  }
}

=== FILE: probs.dfy ===
/**
 * The two reductions of the routing probabilities `router_probs`
 * (batch x sequence x experts) that the press reads: the per-expert mean
 * over batch and sequence that picks the dominant expert, and the
 * per-position mean (over the batch, then over the experts) that the
 * selective strategy ranks positions by.
 */
module Probs {
  import opened Common

  /** Every row of `m` has `width` entries. */
  predicate Rect(m: seq<seq<real>>, width: nat)
  {
    forall i :: 0 <= i < |m| ==> |m[i]| == width
  }

  /** `router_probs` has shape `batch x seqLen x numExperts`. */
  predicate Shaped(probs: seq<seq<seq<real>>>, batch: nat, seqLen: nat, numExperts: nat)
  {
    |probs| == batch && forall b :: 0 <= b < batch ==> |probs[b]| == seqLen && Rect(probs[b], numExperts)
  }

  /** Every token's probabilities sum to 1, as a softmax output does. */
  predicate Normalised(probs: seq<seq<seq<real>>>)
  {
    forall b, s :: 0 <= b < |probs| && 0 <= s < |probs[b]| ==> Sum(probs[b][s]) == 1.0
  }

  function Mean(xs: seq<real>): real
    requires |xs| > 0
  {
    Sum(xs) / |xs| as real
  }

  function Column(m: seq<seq<real>>, e: nat): (c: seq<real>)
    requires forall i :: 0 <= i < |m| ==> e < |m[i]|
    ensures |c| == |m| && forall i :: 0 <= i < |m| ==> c[i] == m[i][e]
  {
    seq(|m|, i requires 0 <= i < |m| => m[i][e])
  }

  function ColumnSums(m: seq<seq<real>>, width: nat): (r: seq<real>)
    requires Rect(m, width)
    ensures |r| == width && forall e :: 0 <= e < width ==> r[e] == Sum(Column(m, e))
  {
    seq(width, e requires 0 <= e < width => Sum(Column(m, e)))
  }

  function RowSums(m: seq<seq<real>>): (r: seq<real>)
    ensures |r| == |m| && forall i :: 0 <= i < |m| ==> r[i] == Sum(m[i])
  {
    seq(|m|, i requires 0 <= i < |m| => Sum(m[i]))
  }

  lemma {:induction false} SumAdd(a: seq<real>, b: seq<real>, c: seq<real>)
    requires |a| == |b| == |c|
    requires forall i :: 0 <= i < |c| ==> c[i] == a[i] + b[i]
    ensures Sum(c) == Sum(a) + Sum(b)
  {
    if |c| > 0 {
      var n := |c| - 1;
      SumAdd(a[..n], b[..n], c[..n]);
    }
  }

  lemma {:induction false} SumScale(a: seq<real>, c: seq<real>, k: real)
    requires k != 0.0 && |a| == |c|
    requires forall i :: 0 <= i < |c| ==> c[i] == a[i] / k
    ensures Sum(c) == Sum(a) / k
  {
    if |c| > 0 {
      var n := |c| - 1;
      SumScale(a[..n], c[..n], k);
      assert Sum(c) == Sum(c[..n]) + c[n];
      assert Sum(a) == Sum(a[..n]) + a[n];
      DivideSum(Sum(a[..n]), a[n], k);
    }
  }

  lemma DivideSum(x: real, y: real, k: real)
    requires k != 0.0
    ensures (x + y) / k == x / k + y / k
  {
  }

  lemma {:induction false} SumConst(a: seq<real>, x: real)
    requires forall i :: 0 <= i < |a| ==> a[i] == x
    ensures Sum(a) == |a| as real * x
  {
    if |a| > 0 {
      SumConst(a[..|a| - 1], x);
    }
  }

  /**
   * Summing a rectangular matrix column by column gives the same total as
   * summing it row by row.
   */
  lemma {:induction false} SumSwap(m: seq<seq<real>>, width: nat)
    requires Rect(m, width)
    ensures Sum(ColumnSums(m, width)) == Sum(RowSums(m))
  {
    if |m| == 0 {
      SumConst(ColumnSums(m, width), 0.0);
    } else {
      var n := |m| - 1;
      SumSwap(m[..n], width);
      ColumnSumsStep(m, width);
      SumAdd(ColumnSums(m[..n], width), m[n], ColumnSums(m, width));
      RowSumsStep(m);
    }
  }

  lemma ColumnSumsStep(m: seq<seq<real>>, width: nat)
    requires Rect(m, width) && |m| > 0
    ensures forall e :: 0 <= e < width ==>
              ColumnSums(m, width)[e] == ColumnSums(m[..|m| - 1], width)[e] + m[|m| - 1][e]
  {
    forall e | 0 <= e < width
      ensures ColumnSums(m, width)[e] == ColumnSums(m[..|m| - 1], width)[e] + m[|m| - 1][e]
    {
      ColumnStep(m, e);
    }
  }

  lemma RowSumsStep(m: seq<seq<real>>)
    requires |m| > 0
    ensures Sum(RowSums(m)) == Sum(RowSums(m[..|m| - 1])) + Sum(m[|m| - 1])
  {
    var rs := RowSums(m);
    assert rs[..|m| - 1] == RowSums(m[..|m| - 1]);
  }

  lemma ColumnStep(m: seq<seq<real>>, e: nat)
    requires |m| > 0 && forall i :: 0 <= i < |m| ==> e < |m[i]|
    ensures Sum(Column(m, e)) == Sum(Column(m[..|m| - 1], e)) + m[|m| - 1][e]
  {
    var n := |m| - 1;
    assert Column(m, e)[..n] == Column(m[..n], e);
  }

  /** `router_probs.mean(dim=[0, 1])`: each expert's mean probability over all tokens. */
  function ExpertMeans(probs: seq<seq<seq<real>>>, batch: nat, seqLen: nat, numExperts: nat): (m: seq<real>)
    requires Shaped(probs, batch, seqLen, numExperts) && batch > 0 && seqLen > 0
    ensures |m| == numExperts
  {
    var tokens := (batch * seqLen) as real;
    seq(numExperts, e requires 0 <= e < numExperts =>
      Sum(seq(batch, b requires 0 <= b < batch => Sum(Column(probs[b], e)))) / tokens)
  }

  /**
   * `router_probs.mean(dim=0).mean(dim=-1)`: for each position, the mean
   * over the batch of each expert's probability, averaged over the experts.
   */
  function ImportanceScores(probs: seq<seq<seq<real>>>, batch: nat, seqLen: nat, numExperts: nat): (r: seq<real>)
    requires Shaped(probs, batch, seqLen, numExperts) && batch > 0 && numExperts > 0
    ensures |r| == seqLen
  {
    seq(seqLen, s requires 0 <= s < seqLen =>
      Mean(seq(numExperts, e requires 0 <= e < numExperts =>
        Mean(seq(batch, b requires 0 <= b < batch => probs[b][s][e])))))
  }

  /**
   * When every token's probabilities sum to 1, the selective strategy's
   * scores are all `1 / num_experts`: no position outranks another, and which
   * positions are kept is decided by tie-breaking alone.
   */
  lemma FlatImportance(probs: seq<seq<seq<real>>>, batch: nat, seqLen: nat, numExperts: nat, s: nat)
    requires Shaped(probs, batch, seqLen, numExperts) && batch > 0 && numExperts > 0
    requires Normalised(probs) && s < seqLen
    ensures ImportanceScores(probs, batch, seqLen, numExperts)[s] == 1.0 / numExperts as real
  {
    var m := seq(batch, b requires 0 <= b < batch => probs[b][s]);
    assert Rect(m, numExperts);
    var inner := seq(numExperts, e requires 0 <= e < numExperts =>
      Mean(seq(batch, b requires 0 <= b < batch => probs[b][s][e])));
    forall e | 0 <= e < numExperts
      ensures inner[e] == ColumnMeans(m, numExperts)[e]
    {
      assert seq(batch, b requires 0 <= b < batch => probs[b][s][e]) == Column(m, e);
    }
    assert inner == ColumnMeans(m, numExperts);
    ColumnMeansSumToOne(m, numExperts);
  }

  function ColumnMeans(m: seq<seq<real>>, width: nat): (r: seq<real>)
    requires Rect(m, width) && |m| > 0
    ensures |r| == width && forall e :: 0 <= e < width ==> r[e] == Mean(Column(m, e))
  {
    seq(width, e requires 0 <= e < width => Mean(Column(m, e)))
  }

  /** Averaging the rows of a matrix whose rows each sum to 1 gives a row that sums to 1. */
  lemma ColumnMeansSumToOne(m: seq<seq<real>>, width: nat)
    requires Rect(m, width) && |m| > 0
    requires forall i :: 0 <= i < |m| ==> Sum(m[i]) == 1.0
    ensures Sum(ColumnMeans(m, width)) == 1.0
  {
    var k := |m| as real;
    SumScale(ColumnSums(m, width), ColumnMeans(m, width), k);
    SumSwap(m, width);
    SumConst(RowSums(m), 1.0);
    DivideSelf(k);
  }

  lemma DivideSelf(k: real)
    requires k != 0.0
    ensures (k * 1.0) / k == 1.0 && k / k == 1.0
  {
  }

  lemma AtLeastReciprocal(x: real, n: real)
    requires n > 0.0 && 1.0 <= n * x
    ensures x >= 1.0 / n
  {
  }

  lemma NatProduct(a: nat, b: nat)
    ensures a as real * b as real == (a * b) as real
  {
  }

  /** When every token's probabilities sum to 1, so do the per-expert means. */
  lemma ExpertMeansSumToOne(probs: seq<seq<seq<real>>>, batch: nat, seqLen: nat, numExperts: nat)
    requires Shaped(probs, batch, seqLen, numExperts) && batch > 0 && seqLen > 0
    requires Normalised(probs)
    ensures Sum(ExpertMeans(probs, batch, seqLen, numExperts)) == 1.0
  {
    var tokens := (batch * seqLen) as real;
    var big := seq(batch, b requires 0 <= b < batch => ColumnSums(probs[b], numExperts));
    MeansAreScaledTotals(probs, batch, seqLen, numExperts, big);
    BatchTotal(probs, batch, seqLen, numExperts, big);
    DivideSelf(tokens);
  }

  lemma MeansAreScaledTotals(probs: seq<seq<seq<real>>>, batch: nat, seqLen: nat, numExperts: nat, big: seq<seq<real>>)
    requires Shaped(probs, batch, seqLen, numExperts) && batch > 0 && seqLen > 0
    requires |big| == batch && forall b :: 0 <= b < batch ==> big[b] == ColumnSums(probs[b], numExperts)
    ensures Rect(big, numExperts)
    ensures (batch * seqLen) as real > 0.0
    ensures Sum(ExpertMeans(probs, batch, seqLen, numExperts)) == Sum(ColumnSums(big, numExperts)) / (batch * seqLen) as real
  {
    AllMeansScaled(probs, batch, seqLen, numExperts, big);
    PositiveTokens(batch, seqLen);
    SumScale(ColumnSums(big, numExperts), ExpertMeans(probs, batch, seqLen, numExperts), (batch * seqLen) as real);
  }

  lemma AllMeansScaled(probs: seq<seq<seq<real>>>, batch: nat, seqLen: nat, numExperts: nat, big: seq<seq<real>>)
    requires Shaped(probs, batch, seqLen, numExperts) && batch > 0 && seqLen > 0
    requires |big| == batch && forall b :: 0 <= b < batch ==> big[b] == ColumnSums(probs[b], numExperts)
    ensures Rect(big, numExperts)
    ensures forall e :: 0 <= e < numExperts ==>
              ExpertMeans(probs, batch, seqLen, numExperts)[e] == ColumnSums(big, numExperts)[e] / (batch * seqLen) as real
  {
    forall e | 0 <= e < numExperts
      ensures ExpertMeans(probs, batch, seqLen, numExperts)[e] == ColumnSums(big, numExperts)[e] / (batch * seqLen) as real
    {
      MeanIsScaledTotal(probs, batch, seqLen, numExperts, big, e);
    }
  }

  lemma MeanIsScaledTotal(probs: seq<seq<seq<real>>>, batch: nat, seqLen: nat, numExperts: nat, big: seq<seq<real>>, e: nat)
    requires Shaped(probs, batch, seqLen, numExperts) && batch > 0 && seqLen > 0 && e < numExperts
    requires |big| == batch && forall b :: 0 <= b < batch ==> big[b] == ColumnSums(probs[b], numExperts)
    ensures Rect(big, numExperts)
    ensures ExpertMeans(probs, batch, seqLen, numExperts)[e] == ColumnSums(big, numExperts)[e] / (batch * seqLen) as real
  {
    assert seq(batch, b requires 0 <= b < batch => Sum(Column(probs[b], e))) == Column(big, e);
  }

  lemma BatchTotal(probs: seq<seq<seq<real>>>, batch: nat, seqLen: nat, numExperts: nat, big: seq<seq<real>>)
    requires Shaped(probs, batch, seqLen, numExperts) && Normalised(probs)
    requires |big| == batch && forall b :: 0 <= b < batch ==> big[b] == ColumnSums(probs[b], numExperts)
    ensures Rect(big, numExperts)
    ensures Sum(ColumnSums(big, numExperts)) == (batch * seqLen) as real
  {
    SumSwap(big, numExperts);
    forall b | 0 <= b < batch
      ensures RowSums(big)[b] == seqLen as real
    {
      RowTotal(probs[b], numExperts);
    }
    ConstantTotal(RowSums(big), batch, seqLen);
  }

  /** The expert totals of one batch row of normalised probabilities add up to its length. */
  lemma RowTotal(row: seq<seq<real>>, numExperts: nat)
    requires Rect(row, numExperts)
    requires forall s :: 0 <= s < |row| ==> Sum(row[s]) == 1.0
    ensures Sum(ColumnSums(row, numExperts)) == |row| as real
  {
    SumSwap(row, numExperts);
    SumConst(RowSums(row), 1.0);
  }

  lemma ConstantTotal(rs: seq<real>, n: nat, x: nat)
    requires |rs| == n && forall i :: 0 <= i < n ==> rs[i] == x as real
    ensures Sum(rs) == (n * x) as real
  {
    SumConst(rs, x as real);
    NatProduct(n, x);
  }

  lemma PositiveTokens(batch: nat, seqLen: nat)
    requires batch > 0 && seqLen > 0
    ensures batch * seqLen > 0
  {
  }

  /**
   * For softmax outputs the dominant expert (the first maximal mean) has a
   * mean of at least `1 / num_experts`.
   */
  lemma DominantAtLeastUniform(probs: seq<seq<seq<real>>>, batch: nat, seqLen: nat, numExperts: nat)
    requires Shaped(probs, batch, seqLen, numExperts) && batch > 0 && seqLen > 0 && numExperts > 0
    requires Normalised(probs)
    ensures var m := ExpertMeans(probs, batch, seqLen, numExperts);
            m[ArgMax(m)] >= 1.0 / numExperts as real
  {
    var m := ExpertMeans(probs, batch, seqLen, numExperts);
    ExpertMeansSumToOne(probs, batch, seqLen, numExperts);
    SumAtMost(m, m[ArgMax(m)]);
    AtLeastReciprocal(m[ArgMax(m)], numExperts as real);
  }
}

=== FILE: ring.dfy ===
/**
 * The bounded circular histories the routers keep: a fixed number of slots
 * and a write counter that only grows. Each write goes to slot
 * `counter mod capacity` and then bumps the counter; the number of valid
 * entries is `min(counter, capacity)`. The balance-loss history has 100
 * slots, the importance history 1000, the cache-usage history 100 per
 * expert and the EPLB load history 50.
 */
module Ring {
  import opened Common

  const BalanceHistoryCapacity: nat := 100
  const ImportanceHistoryCapacity: nat := 1000
  const CacheUsageHistoryCapacity: nat := 100
  const LoadHistoryCapacity: nat := 50

  datatype Ring<T> = Ring(slots: seq<T>, cursor: nat)
  {
    predicate Valid() { |slots| > 0 }

    function Capacity(): nat { |slots| }

    /** `min(counter, capacity)`, as read back by the statistics accessors. */
    function ValidCount(): nat { Min(cursor, |slots|) }

    /** The first `ValidCount()` slots, as `history[:valid_entries]` reads them. */
    function Recent(): (r: seq<T>)
      ensures |r| == ValidCount()
    {
      slots[..ValidCount()]
    }
  }

  /** A freshly registered history: every slot `zero`, counter 0. */
  function Empty<T>(capacity: nat, zero: T): (r: Ring<T>)
    requires capacity > 0
    ensures r.Valid() && r.Capacity() == capacity
    ensures r.cursor == 0 && r.ValidCount() == 0
    ensures forall j :: 0 <= j < capacity ==> r.slots[j] == zero
  {
    Ring(seq(capacity, _ => zero), 0)
  }

  /**
   * One history write. Exactly one slot changes, the one the counter points
   * at modulo the capacity, and the counter rises by exactly 1.
   */
  function Push<T>(r: Ring<T>, x: T): (r': Ring<T>)
    requires r.Valid()
    ensures r'.Valid() && r'.Capacity() == r.Capacity()
    ensures r'.cursor == r.cursor + 1
    ensures r'.slots[r.cursor % r.Capacity()] == x
    ensures forall j :: 0 <= j < r.Capacity() && j != r.cursor % r.Capacity() ==> r'.slots[j] == r.slots[j]
    ensures r'.ValidCount() == Min(r.ValidCount() + 1, r.Capacity())
  {
    Ring(r.slots[r.cursor % |r.slots| := x], r.cursor + 1)
  }

  /** Writes `xs` one after the other, in order. */
  function PushAll<T>(r: Ring<T>, xs: seq<T>): (r': Ring<T>)
    requires r.Valid()
    ensures r'.Valid() && r'.Capacity() == r.Capacity()
    ensures r'.cursor == r.cursor + |xs|
  {
    if |xs| == 0 then r else Push(PushAll(r, xs[..|xs| - 1]), xs[|xs| - 1])
  }

  lemma MultipleSign(k: int, m: nat)
    requires m > 0
    ensures k <= 0 ==> k * m <= 0
    ensures k >= 1 ==> k * m >= m
  {
    if k >= 1 {
      assert k * m == (k - 1) * m + m;
    }
  }

  lemma ModDiffers(a: nat, j: nat, m: nat)
    requires 0 < j < m && j <= a
    ensures (a - j) % m != a % m
  {
    var q1, q2 := (a - j) / m, a / m;
    assert a - j == q1 * m + (a - j) % m;
    assert a == q2 * m + a % m;
    if (a - j) % m == a % m {
      assert j == q2 * m - q1 * m;
      assert j == (q2 - q1) * m;
      MultipleSign(q2 - q1, m);
    }
  }

  /**
   * A history keeps the last `capacity` values written: after writing `xs`,
   * the `j`-th most recent write sits in slot `(counter - 1 - j) mod capacity`
   * for every `j < min(|xs|, capacity)`.
   */
  lemma {:induction false} PushAllKeepsLatest<T>(r: Ring<T>, xs: seq<T>, j: nat)
    requires r.Valid()
    requires j < |xs| && j < r.Capacity()
    ensures PushAll(r, xs).slots[(r.cursor + |xs| - 1 - j) % r.Capacity()] == xs[|xs| - 1 - j]
    decreases |xs|
  {
    var n := |xs|;
    var before := PushAll(r, xs[..n - 1]);
    var m := r.Capacity();
    if j > 0 {
      PushAllKeepsLatest(r, xs[..n - 1], j - 1);
      ModDiffers(r.cursor + n - 1, j, m);
    }
  }

  /**
   * Before the counter wraps, a history read back from a fresh buffer is
   * exactly the sequence of values written, in write order.
   */
  lemma {:induction false} FreshHistoryInOrder<T>(capacity: nat, zero: T, xs: seq<T>)
    requires 0 < capacity && |xs| <= capacity
    ensures PushAll(Empty(capacity, zero), xs).Recent() == xs
  {
    var e := Empty(capacity, zero);
    var r := PushAll(e, xs);
    assert r.cursor == |xs|;
    forall i | 0 <= i < |xs|
      ensures r.slots[i] == xs[i]
    {
      SlotOfFreshWrite(e, xs, i);
    }
    assert r.Recent() == r.slots[..|xs|];
  }

  lemma SmallMod(i: nat, m: nat)
    requires i < m
    ensures i % m == i
  {
  }

  lemma {:induction false} SlotOfFreshWrite<T>(e: Ring<T>, xs: seq<T>, i: nat)
    requires e.Valid() && e.cursor == 0 && |xs| <= e.Capacity() && i < |xs|
    ensures PushAll(e, xs).slots[i] == xs[i]
    decreases |xs|
  {
    var n := |xs|;
    var before := PushAll(e, xs[..n - 1]);
    assert PushAll(e, xs) == Push(before, xs[n - 1]);
    SmallMod(n - 1, e.Capacity());
    if i < n - 1 {
      SlotOfFreshWrite(e, xs[..n - 1], i);
      assert before.slots[i] == xs[i];
    }
  }
}

=== FILE: router_stats.dfy ===
/**
 * The routing counters of BaseMoERouter: `total_tokens`,
 * `expert_usage_count` and `routing_decisions`, their update after a routing
 * call, the ratio read-back of `get_routing_stats` and `reset_stats`.
 *
 * The source keeps the counters in float32 buffers; the model counts
 * exactly.
 */
module RouterStats {
  import opened Common

  datatype RoutingStats = RoutingStats(totalTokens: nat, usage: seq<nat>, decisions: seq<nat>)
  {
    predicate Valid(numExperts: nat) { |usage| == numExperts && |decisions| == numExperts }
  }

  function Zeros(n: nat): (r: seq<nat>)
    ensures |r| == n && forall e :: 0 <= e < n ==> r[e] == 0
  {
    seq(n, _ => 0)
  }

  /** The counters of a freshly constructed router. */
  function Fresh(numExperts: nat): (st: RoutingStats)
    ensures st.Valid(numExperts) && st.totalTokens == 0
    ensures forall e :: 0 <= e < numExperts ==> st.usage[e] == 0 && st.decisions[e] == 0
  {
    RoutingStats(0, Zeros(numExperts), Zeros(numExperts))
  }

  /** Adds to each expert's counter its number of occurrences in `selected`. */
  function AddCounts(counts: seq<nat>, selected: seq<nat>): (r: seq<nat>)
    ensures |r| == |counts|
    ensures forall e :: 0 <= e < |counts| ==> r[e] == counts[e] + Count(selected, e)
  {
    seq(|counts|, e requires 0 <= e < |counts| => counts[e] + Count(selected, e))
  }

  /**
   * Counter update of a base routing call over `tokens = batch * seq_len`
   * tokens whose top-k expert indices, flattened, are `selected`.
   */
  function RecordRouting(st: RoutingStats, tokens: nat, selected: seq<nat>): (st': RoutingStats)
    requires st.Valid(|st.usage|)
    ensures st'.Valid(|st.usage|)
    ensures st'.totalTokens == st.totalTokens + tokens
    ensures forall e :: 0 <= e < |st.usage| ==>
              st'.usage[e] == st.usage[e] + Count(selected, e) && st'.decisions[e] == st.decisions[e] + Count(selected, e)
  {
    RoutingStats(st.totalTokens + tokens, AddCounts(st.usage, selected), AddCounts(st.decisions, selected))
  }

  /**
   * Counter update of the cache-aware (PiKV) forward, which raises
   * `total_tokens` and `expert_usage_count` but leaves `routing_decisions`
   * untouched.
   */
  function RecordUsageOnly(st: RoutingStats, tokens: nat, selected: seq<nat>): (st': RoutingStats)
    requires st.Valid(|st.usage|)
    ensures st'.Valid(|st.usage|)
    ensures st'.totalTokens == st.totalTokens + tokens
    ensures st'.decisions == st.decisions
    ensures forall e :: 0 <= e < |st.usage| ==> st'.usage[e] == st.usage[e] + Count(selected, e)
  {
    RoutingStats(st.totalTokens + tokens, AddCounts(st.usage, selected), st.decisions)
  }

  /** Total of a counter vector. */
  function Total(xs: seq<nat>): nat
  {
    if |xs| == 0 then 0 else Total(xs[..|xs| - 1]) + xs[|xs| - 1]
  }

  /** Sum over experts `0 .. n - 1` of the occurrences of each in `selected`. */
  function CountedUpTo(selected: seq<nat>, n: nat): nat
  {
    if n == 0 then 0 else CountedUpTo(selected, n - 1) + Count(selected, n - 1)
  }

  lemma {:induction false} CountedAppend(selected: seq<nat>, x: nat, n: nat)
    ensures CountedUpTo(selected + [x], n) == CountedUpTo(selected, n) + (if x < n then 1 else 0)
  {
    if n > 0 {
      CountedAppend(selected, x, n - 1);
      assert (selected + [x])[..|selected|] == selected;
    }
  }

  /**
   * When every selected index names an expert, the per-expert occurrence
   * counts add up to the number of selections: one routing call over
   * `batch * seq_len` tokens with `top_k` choices each adds
   * `batch * seq_len * top_k` to the usage counters in total.
   */
  lemma {:induction false} CountsPartitionSelections(selected: seq<nat>, numExperts: nat)
    requires forall i :: 0 <= i < |selected| ==> selected[i] < numExperts
    ensures CountedUpTo(selected, numExperts) == |selected|
  {
    if |selected| == 0 {
      CountedEmpty(selected, numExperts);
    } else {
      var n := |selected| - 1;
      assert selected == selected[..n] + [selected[n]];
      CountsPartitionSelections(selected[..n], numExperts);
      CountedAppend(selected[..n], selected[n], numExperts);
    }
  }

  lemma {:induction false} CountedEmpty(selected: seq<nat>, n: nat)
    requires |selected| == 0
    ensures CountedUpTo(selected, n) == 0
  {
    if n > 0 {
      CountedEmpty(selected, n - 1);
    }
  }

  lemma {:induction false} TotalOfAddedCounts(counts: seq<nat>, selected: seq<nat>, n: nat)
    requires n <= |counts|
    ensures Total(AddCounts(counts, selected)[..n]) == Total(counts[..n]) + CountedUpTo(selected, n)
  {
    if n > 0 {
      TotalOfAddedCounts(counts, selected, n - 1);
      assert AddCounts(counts, selected)[..n][..n - 1] == AddCounts(counts, selected)[..n - 1];
      assert counts[..n][..n - 1] == counts[..n - 1];
    }
  }

  /** A base routing call raises the usage (and decision) total by exactly the number of selections. */
  lemma RecordRoutingTotal(st: RoutingStats, tokens: nat, selected: seq<nat>)
    requires st.Valid(|st.usage|)
    requires forall i :: 0 <= i < |selected| ==> selected[i] < |st.usage|
    ensures Total(RecordRouting(st, tokens, selected).usage) == Total(st.usage) + |selected|
    ensures Total(RecordRouting(st, tokens, selected).decisions) == Total(st.decisions) + |selected|
  {
    var st' := RecordRouting(st, tokens, selected);
    CountsPartitionSelections(selected, |st.usage|);
    TotalOfAddedCounts(st.usage, selected, |st.usage|);
    TotalOfAddedCounts(st.decisions, selected, |st.decisions|);
    assert st'.usage[..|st.usage|] == st'.usage;
    assert st.usage[..|st.usage|] == st.usage;
    assert st'.decisions[..|st.decisions|] == st'.decisions;
    assert st.decisions[..|st.decisions|] == st.decisions;
  }

  /**
   * `get_routing_stats`' usage ratios: each expert's usage divided by the
   * tokens seen, or all zeros before any token was seen.
   */
  function UsageRatios(st: RoutingStats): (r: seq<real>)
    ensures |r| == |st.usage|
    ensures st.totalTokens == 0 ==> forall e :: 0 <= e < |r| ==> r[e] == 0.0
    ensures st.totalTokens > 0 ==> forall e :: 0 <= e < |r| ==> r[e] * (st.totalTokens as real) == st.usage[e] as real
  {
    if st.totalTokens > 0 then
      seq(|st.usage|, e requires 0 <= e < |st.usage| => st.usage[e] as real / st.totalTokens as real)
    else
      seq(|st.usage|, _ => 0.0)
  }

  /** `reset_stats`: every counter back to zero, one per expert as before. */
  function Reset(st: RoutingStats): (st': RoutingStats)
    ensures st'.totalTokens == 0
    ensures |st'.usage| == |st.usage| && |st'.decisions| == |st.decisions|
    ensures forall e :: 0 <= e < |st.usage| ==> st'.usage[e] == 0
    ensures forall e :: 0 <= e < |st.decisions| ==> st'.decisions[e] == 0
  {
    RoutingStats(0, Zeros(|st.usage|), Zeros(|st.decisions|))
  }
}

=== FILE: routers.dfy ===
/**
 * The router family as one closed tagged variant: the base router, the
 * balanced router with a balance-loss history, the importance-adaptive
 * router, the cache-aware (PiKV) router, the exact-balance (EPLB) router and
 * the hierarchical router.
 *
 * The learned parts of a routing call (scores, softmax, top-k over
 * probabilities, importance and top-k predictors, balance losses) are
 * inputs collected in a `RoutingCall`; the model covers what each variant
 * does with them to its own state.
 */
module Routers {
  import opened Common
  import opened Config
  import opened Ring
  import opened RouterStats
  import Dispatch

  datatype VariantState =
    | BaseState
    | Balanced(balanceHistory: Ring<real>)
    | Adaptive(adaptiveTopK: bool, importanceHistory: Ring<real>)
    | CacheAware(importanceHistory: Ring<real>, hitRates: seq<real>, usageHistory: seq<seq<real>>, updateCounter: nat)
    | ExactBalance(weights: seq<real>, loadHistory: Ring<seq<real>>)
    | Hierarchy(numGroups: nat, groupTopK: nat)

  datatype Router = Router(config: RouterConfig, stats: RoutingStats, variant: VariantState)
  {
    predicate Valid()
    {
      && config.Valid()
      && stats.Valid(config.numExperts)
      && match variant
         case BaseState => true
         case Balanced(h) => h.Valid() && h.Capacity() == BalanceHistoryCapacity
         case Adaptive(_, h) => h.Valid() && h.Capacity() == ImportanceHistoryCapacity
         case CacheAware(h, rates, usage, _) =>
           && h.Valid() && h.Capacity() == ImportanceHistoryCapacity
           && |rates| == config.numExperts
           && |usage| == config.numExperts
           && (forall e :: 0 <= e < |usage| ==> |usage[e]| == CacheUsageHistoryCapacity)
         case ExactBalance(w, h) =>
           && |w| == config.numExperts
           && h.Valid() && h.Capacity() == LoadHistoryCapacity
           && LoadColumns(h.slots, config.numExperts)
         case Hierarchy(groups, _) => groups > 0
    }
  }

  /** Every recorded load column has one non-negative entry per expert. */
  predicate LoadColumns(cols: seq<seq<real>>, numExperts: nat)
  {
    forall j :: 0 <= j < |cols| ==> |cols[j]| == numExperts && forall e :: 0 <= e < numExperts ==> cols[j][e] >= 0.0
  }

  datatype RouterKind = BaseKind | BalancedKind | AdaptiveKind | CacheAwareKind | ExactBalanceKind | HierarchicalKind

  /** The press's `router_type` string; anything unrecognised selects the base router. */
  function KindOf(routerType: string): (k: RouterKind)
    ensures k == BalancedKind <==> routerType == "topk_balanced"
    ensures k == AdaptiveKind <==> routerType == "adaptive"
    ensures k == CacheAwareKind <==> routerType == "pikv"
    ensures k == ExactBalanceKind <==> routerType == "eplb"
    ensures k == HierarchicalKind <==> routerType == "hierarchical"
  {
    if routerType == "topk_balanced" then BalancedKind
    else if routerType == "adaptive" then AdaptiveKind
    else if routerType == "pikv" then CacheAwareKind
    else if routerType == "eplb" then ExactBalanceKind
    else if routerType == "hierarchical" then HierarchicalKind
    else BaseKind
  }

  /** Construction parameters the press hands to every router it builds. */
  datatype RouterParams = RouterParams(
    numExperts: nat,
    topK: nat,
    capacityFactor: Ratio,
    adaptiveTopK: bool,
    numGroups: nat,
    groupTopK: nat)
  {
    predicate Valid(kind: RouterKind)
    {
      && numExperts > 0
      && capacityFactor.Valid()
      && (kind == HierarchicalKind ==> numGroups > 0)
    }
  }

  function RealZeros(n: nat): (r: seq<real>)
    ensures |r| == n && forall e :: 0 <= e < n ==> r[e] == 0.0
  {
    seq(n, _ => 0.0)
  }

  /**
   * A freshly constructed router: clamped top-k, zero counters, zeroed
   * histories with their cursors at 0, unit EPLB weights. The cache-aware
   * router always enables the adaptive top-k predictor.
   */
  function NewRouter(kind: RouterKind, p: RouterParams): (r: Router)
    requires p.Valid(kind)
    ensures r.Valid()
    ensures r.config == MakeConfig(p.numExperts, p.topK, p.capacityFactor)
    ensures r.stats == Fresh(p.numExperts)
    ensures kind == BaseKind <==> r.variant.BaseState?
    ensures kind == BalancedKind <==> r.variant.Balanced?
    ensures kind == AdaptiveKind <==> r.variant.Adaptive?
    ensures kind == CacheAwareKind <==> r.variant.CacheAware?
    ensures kind == ExactBalanceKind <==> r.variant.ExactBalance?
    ensures kind == HierarchicalKind <==> r.variant.Hierarchy?
    ensures r.variant.ExactBalance? ==> forall e :: 0 <= e < p.numExperts ==> r.variant.weights[e] == 1.0
  {
    var config := MakeConfig(p.numExperts, p.topK, p.capacityFactor);
    var variant := match kind
      case BaseKind => BaseState
      case BalancedKind => Balanced(Empty(BalanceHistoryCapacity, 0.0))
      case AdaptiveKind => Adaptive(p.adaptiveTopK, Empty(ImportanceHistoryCapacity, 0.0))
      case CacheAwareKind =>
        CacheAware(Empty(ImportanceHistoryCapacity, 0.0), RealZeros(p.numExperts),
                   seq(p.numExperts, _ => RealZeros(CacheUsageHistoryCapacity)), 0)
      case ExactBalanceKind => ExactBalance(seq(p.numExperts, _ => 1.0), Empty(LoadHistoryCapacity, RealZeros(p.numExperts)))
      case HierarchicalKind => Hierarchy(p.numGroups, p.groupTopK);
    Router(config, Fresh(p.numExperts), variant)
  }

  // ---------------------------------------------------------------------
  // Top-k for one call

  /**
   * `_adapt_top_k` with the predictor enabled: one plus the index of the
   * predictor's most probable entry, capped at the router's top-k. The
   * predictor has one output per requested top-k value.
   */
  function AdaptTopK(predictor: seq<real>, topK: nat): (k: nat)
    requires |predictor| > 0
    ensures k <= topK
    ensures topK >= 1 ==> 1 <= k
    ensures k == topK || (
              && 1 <= k <= |predictor|
              && (forall j :: 0 <= j < |predictor| ==> predictor[j] <= predictor[k - 1])
              && (forall j :: 0 <= j < k - 1 ==> predictor[j] < predictor[k - 1]))
    ensures forall j :: 0 <= j < |predictor| && (forall i :: 0 <= i < |predictor| ==> predictor[i] <= predictor[j])
              ==> k <= j + 1
  {
    var best := ArgMax(predictor);
    ArgMaxIsFirst(predictor);
    if best < topK then best + 1 else topK
  }

  predicate PredictorReady(r: Router, predictor: seq<real>)
  {
    UsesPredictor(r) ==> |predictor| == r.config.requestedTopK && |predictor| > 0
  }

  predicate UsesPredictor(r: Router)
  {
    (r.variant.Adaptive? && r.variant.adaptiveTopK) || r.variant.CacheAware?
  }

  /**
   * The top-k a routing call uses: the adapted value for routers with an
   * enabled predictor, the configured value otherwise. It stays within
   * `[1, top_k]` and so never exceeds the number of experts.
   */
  function EffectiveTopK(r: Router, predictor: seq<real>): (k: nat)
    requires r.Valid() && PredictorReady(r, predictor)
    ensures k <= r.config.topK <= r.config.numExperts
    ensures r.config.topK >= 1 ==> k >= 1
    ensures !UsesPredictor(r) ==> k == r.config.topK
    ensures UsesPredictor(r) ==> k == AdaptTopK(predictor, r.config.topK)
  {
    if UsesPredictor(r) then AdaptTopK(predictor, r.config.topK) else r.config.topK
  }

  // ---------------------------------------------------------------------
  // One routing call

  /** What the learned part of one routing call produced. */
  datatype RoutingCall = RoutingCall(
    batch: nat,
    seqLen: nat,
    selected: seq<nat>,     // the call's top_k_indices, flattened
    predictor: seq<real>,   // output of the adaptive top-k predictor
    importance: seq<real>,  // per-token importance scores, flattened
    balanceLoss: real)      // the balanced router's extra balance loss

  /**
   * The call's inputs have the shapes the source's tensors have: every
   * router's `top_k_indices` is `[batch, seq_len, k]` for the top-k `k` the
   * call routes with, and the routers that compute importance produce one
   * score per token.
   */
  predicate CallFits(r: Router, call: RoutingCall)
    requires r.Valid()
  {
    && PredictorReady(r, call.predictor)
    && |call.selected| == call.batch * call.seqLen * EffectiveTopK(r, call.predictor)
    && (forall i :: 0 <= i < |call.selected| ==> call.selected[i] < r.config.numExperts)
    && ((r.variant.Adaptive? || r.variant.CacheAware?) ==> |call.importance| == call.batch * call.seqLen)
  }

  /** Number of times each expert was selected, as a load column. */
  function LoadColumn(selected: seq<nat>, numExperts: nat): (col: seq<real>)
    ensures |col| == numExperts
    ensures forall e :: 0 <= e < numExperts ==> col[e] == Count(selected, e) as real
  {
    seq(numExperts, e => Count(selected, e) as real)
  }

  /**
   * The state a routing call leaves behind. The configured top-k is the
   * same afterwards (the adaptive routers override it only for the call);
   * the base, balanced and adaptive routers count `batch * seq_len` tokens
   * and every selection in both usage counters; the cache-aware router
   * counts tokens and usage but not routing decisions; the exact-balance and
   * hierarchical routers leave the counters alone. The balanced router
   * writes its balance loss, the adaptive router every importance score and
   * the exact-balance router its load column into their histories.
   */
  function Forward(r: Router, call: RoutingCall): (r': Router)
    requires r.Valid() && CallFits(r, call)
    ensures r'.Valid()
    ensures r'.config == r.config
    ensures r'.variant.BaseState? == r.variant.BaseState? && r'.variant.Balanced? == r.variant.Balanced?
    ensures r'.variant.Adaptive? == r.variant.Adaptive? && r'.variant.CacheAware? == r.variant.CacheAware?
    ensures r'.variant.ExactBalance? == r.variant.ExactBalance? && r'.variant.Hierarchy? == r.variant.Hierarchy?
    ensures (r.variant.BaseState? || r.variant.Balanced? || r.variant.Adaptive? || r.variant.CacheAware?)
            ==> r'.stats.totalTokens == r.stats.totalTokens + call.batch * call.seqLen
    ensures (r.variant.BaseState? || r.variant.Balanced? || r.variant.Adaptive? || r.variant.CacheAware?)
            ==> forall e :: 0 <= e < r.config.numExperts ==> r'.stats.usage[e] == r.stats.usage[e] + Count(call.selected, e)
    ensures (r.variant.BaseState? || r.variant.Balanced? || r.variant.Adaptive?)
            ==> forall e :: 0 <= e < r.config.numExperts ==> r'.stats.decisions[e] == r.stats.decisions[e] + Count(call.selected, e)
    ensures r.variant.CacheAware? ==> r'.stats.decisions == r.stats.decisions
    ensures (r.variant.ExactBalance? || r.variant.Hierarchy?) ==> r'.stats == r.stats
    ensures r.variant.Balanced? ==>
              r'.variant.balanceHistory.cursor == r.variant.balanceHistory.cursor + 1
              && r'.variant.balanceHistory.slots[r.variant.balanceHistory.cursor % BalanceHistoryCapacity] == call.balanceLoss
    ensures r.variant.Adaptive? ==>
              r'.variant.importanceHistory.cursor == r.variant.importanceHistory.cursor + call.batch * call.seqLen
    ensures r.variant.CacheAware? ==> r'.variant == r.variant
    ensures r.variant.ExactBalance? ==>
              r'.variant.loadHistory.cursor == r.variant.loadHistory.cursor + 1
              && r'.variant.loadHistory.slots[r.variant.loadHistory.cursor % LoadHistoryCapacity]
                 == LoadColumn(call.selected, r.config.numExperts)
              && forall e :: 0 <= e < r.config.numExperts ==> 0.1 <= r'.variant.weights[e] <= 2.0
    ensures r.variant.Hierarchy? ==> r' == r
  {
    var tokens := call.batch * call.seqLen;
    match r.variant
    case BaseState => r.(stats := RecordRouting(r.stats, tokens, call.selected))
    case Balanced(h) =>
      r.(stats := RecordRouting(r.stats, tokens, call.selected),
         variant := Balanced(Push(h, call.balanceLoss)))
    case Adaptive(adaptive, h) =>
      r.(stats := RecordRouting(r.stats, tokens, call.selected),
         variant := Adaptive(adaptive, PushAll(h, call.importance)))
    case CacheAware(_, _, _, _) => r.(stats := RecordUsageOnly(r.stats, tokens, call.selected))
    case ExactBalance(_, _) => ForwardExactBalance(r, call.selected)
    case Hierarchy(_, _) => r
  }

  /**
   * The EPLB router's part of a routing call: the call's usage column goes
   * into the load history and the weights are recomputed from the history's
   * average loads. The counters are not touched.
   */
  function ForwardExactBalance(r: Router, selected: seq<nat>): (r': Router)
    requires r.Valid() && r.variant.ExactBalance?
    ensures r'.Valid() && r'.variant.ExactBalance?
    ensures r'.config == r.config && r'.stats == r.stats
    ensures r'.variant.loadHistory.cursor == r.variant.loadHistory.cursor + 1
    ensures r'.variant.loadHistory.slots[r.variant.loadHistory.cursor % LoadHistoryCapacity]
            == LoadColumn(selected, r.config.numExperts)
    ensures forall e :: 0 <= e < r.config.numExperts ==> 0.1 <= r'.variant.weights[e] <= 2.0
    ensures r'.variant.loadHistory == Push(r.variant.loadHistory, LoadColumn(selected, r.config.numExperts))
    ensures r'.variant.weights == UpdateWeights(r.variant.weights, AverageLoads(r'.variant.loadHistory, r.config.numExperts))
  {
    var col := LoadColumn(selected, r.config.numExperts);
    var h' := Push(r.variant.loadHistory, col);
    assert LoadColumns(h'.slots, r.config.numExperts);
    r.(variant := ExactBalance(UpdateWeights(r.variant.weights, AverageLoads(h', r.config.numExperts)), h'))
  }

  /**
   * The adaptive router's call-scoped top-k: whatever top-k the call used,
   * the router's configured top-k afterwards is the one it was built with.
   */
  lemma ForwardKeepsTopK(r: Router, call: RoutingCall)
    requires r.Valid() && CallFits(r, call)
    ensures Forward(r, call).config.topK == r.config.topK
    ensures EffectiveTopK(r, call.predictor) <= Forward(r, call).config.topK
  {
  }

  /**
   * A counting router's usage total rises by `batch * seq_len * k`, the
   * number of selections made with the call's top-k `k`.
   */
  lemma ForwardUsageTotal(r: Router, call: RoutingCall)
    requires r.Valid() && CallFits(r, call)
    requires r.variant.BaseState? || r.variant.Balanced? || r.variant.Adaptive? || r.variant.CacheAware?
    ensures Total(Forward(r, call).stats.usage)
            == Total(r.stats.usage) + call.batch * call.seqLen * EffectiveTopK(r, call.predictor)
  {
    var tokens := call.batch * call.seqLen;
    RecordRoutingTotal(r.stats, tokens, call.selected);
    assert RecordUsageOnly(r.stats, tokens, call.selected).usage == RecordRouting(r.stats, tokens, call.selected).usage;
  }

  /**
   * The capacity one call computes uses the call's effective top-k, so an
   * adapted top-k never raises it above the capacity of the configured one.
   */
  lemma CallCapacityWithinConfigured(r: Router, call: RoutingCall)
    requires r.Valid() && CallFits(r, call)
    ensures Capacity(call.batch, call.seqLen, r.config.capacityFactor, EffectiveTopK(r, call.predictor), r.config.numExperts)
            <= Capacity(call.batch, call.seqLen, r.config.capacityFactor, r.config.topK, r.config.numExperts)
  {
    CapacityMonotone(call.batch, call.seqLen, r.config.capacityFactor, EffectiveTopK(r, call.predictor), r.config.topK, r.config.numExperts);
  }

  /** The call's top-k choices as `t[b][s][k]`: `batch` rows of `seq_len` tokens with `k` choices each. */
  predicate ChoicesShaped(t: seq<seq<seq<Dispatch.Choice>>>, batch: nat, seqLen: nat, k: nat)
  {
    && |t| == batch
    && (forall b :: 0 <= b < |t| ==> |t[b]| == seqLen)
    && (forall b, s :: 0 <= b < |t| && 0 <= s < |t[b]| ==> |t[b][s]| == k)
  }

  /** The capacity a routing call dispatches against: `_compute_capacity` under the call's top-k. */
  function CallCapacity(r: Router, call: RoutingCall): (cap: nat)
    requires r.Valid() && CallFits(r, call)
    ensures FloorOf(cap, call.batch * call.seqLen * r.config.capacityFactor.num * EffectiveTopK(r, call.predictor),
                    r.config.numExperts * r.config.capacityFactor.den)
  {
    Capacity(call.batch, call.seqLen, r.config.capacityFactor, EffectiveTopK(r, call.predictor), r.config.numExperts)
  }

  /**
   * `_create_dispatch_combine_tensors` as a router call runs it: the
   * capacity is computed from the batch, the sequence length and the top-k
   * in force for the call, and the choices are placed against it. No expert
   * takes more than `capacity` tokens, so `used[e] * num_experts` never
   * exceeds `batch * seq_len * capacity_factor * k`.
   */
  method DispatchCall(r: Router, call: RoutingCall, t: seq<seq<seq<Dispatch.Choice>>>)
    returns (slots: seq<seq<seq<Option<nat>>>>, used: seq<nat>)
    requires r.Valid() && CallFits(r, call)
    requires ChoicesShaped(t, call.batch, call.seqLen, EffectiveTopK(r, call.predictor))
    requires Dispatch.ValidChoices(t, r.config.numExperts)
    requires Dispatch.Experts(Flatten3(t)) == call.selected
    ensures Dispatch.SameShape(slots, t)
    ensures Flatten3(slots) == Dispatch.Placements(Flatten3(t), CallCapacity(r, call))
    ensures forall b, s, k :: 0 <= b < |slots| && 0 <= s < |slots[b]| && 0 <= k < |slots[b][s]| && slots[b][s][k].Some?
              ==> slots[b][s][k].value < CallCapacity(r, call)
    ensures |used| == r.config.numExperts
    ensures forall e :: 0 <= e < |used| ==> used[e] == Min(CallCapacity(r, call), Dispatch.Occurrences(Flatten3(t), e))
    ensures forall e :: 0 <= e < |used| ==> used[e] == Min(CallCapacity(r, call), Count<nat>(call.selected, e))
    ensures forall e :: 0 <= e < |used| ==>
              used[e] * (r.config.numExperts * r.config.capacityFactor.den)
              <= call.batch * call.seqLen * r.config.capacityFactor.num * EffectiveTopK(r, call.predictor)
  {
    var cap := CallCapacity(r, call);
    slots, used := Dispatch.CreateDispatchCombine(t, r.config.numExperts, cap);
    Dispatch.FillsAreCounts(used, Flatten3(t), call.selected, cap);
    FillsWithinFloor(used, cap, call.batch * call.seqLen * r.config.capacityFactor.num * EffectiveTopK(r, call.predictor),
                     r.config.numExperts * r.config.capacityFactor.den);
  }

  /** No fill is above `floor(n / d)`, so no fill times `d` is above `n`. */
  lemma FillsWithinFloor(used: seq<nat>, q: nat, n: nat, d: nat)
    requires FloorOf(q, n, d) && forall e :: 0 <= e < |used| ==> used[e] <= q
    ensures forall e :: 0 <= e < |used| ==> used[e] * d <= n
  {
    forall e | 0 <= e < |used|
      ensures used[e] * d <= n
    {
      WithinFloor(used[e], q, n, d);
    }
  }

  /** A count no larger than `floor(n / d)` has a multiple of `d` no larger than `n`. */
  lemma WithinFloor(u: nat, q: nat, n: nat, d: nat)
    requires u <= q && FloorOf(q, n, d)
    ensures u * d <= n
  {
    ScaleMonotone(d, u, q);
  }

  /**
   * A router's `reset_stats`: its counters return to those of a fresh
   * router, while its configuration and every history, cursor, EPLB weight
   * and cache hit rate survive.
   */
  function ResetRouter(r: Router): (r': Router)
    requires r.Valid()
    ensures r'.Valid()
    ensures r'.config == r.config && r'.variant == r.variant
    ensures r'.stats == Fresh(r.config.numExperts)
  {
    var st := Reset(r.stats);
    assert st.usage == Zeros(r.config.numExperts);
    assert st.decisions == Zeros(r.config.numExperts);
    r.(stats := st)
  }

  // ---------------------------------------------------------------------
  // Cache-usage feedback (PiKV)

  /**
   * `update_cache_usage`: an in-range expert gets its hit rate replaced and
   * the rate written to its own history row at slot `counter mod 100`; an
   * out-of-range index changes neither. The shared counter rises by 1 either
   * way.
   */
  function UpdateCacheUsage(r: Router, expert: int, rate: real): (r': Router)
    requires r.Valid() && r.variant.CacheAware?
    ensures r'.Valid() && r'.variant.CacheAware?
    ensures r'.config == r.config && r'.stats == r.stats
    ensures r'.variant.importanceHistory == r.variant.importanceHistory
    ensures r'.variant.updateCounter == r.variant.updateCounter + 1
    ensures !(0 <= expert < r.config.numExperts) ==>
              r'.variant.hitRates == r.variant.hitRates && r'.variant.usageHistory == r.variant.usageHistory
    ensures 0 <= expert < r.config.numExperts ==>
              && r'.variant.hitRates == r.variant.hitRates[expert := rate]
              && r'.variant.usageHistory[expert][r.variant.updateCounter % CacheUsageHistoryCapacity] == rate
              && (forall j :: 0 <= j < CacheUsageHistoryCapacity && j != r.variant.updateCounter % CacheUsageHistoryCapacity
                    ==> r'.variant.usageHistory[expert][j] == r.variant.usageHistory[expert][j])
              && (forall e :: 0 <= e < r.config.numExperts && e != expert ==> r'.variant.usageHistory[e] == r.variant.usageHistory[e])
  {
    var v := r.variant;
    if 0 <= expert < r.config.numExperts then
      var slot := v.updateCounter % CacheUsageHistoryCapacity;
      var row := v.usageHistory[expert][slot := rate];
      r.(variant := v.(hitRates := v.hitRates[expert := rate],
                       usageHistory := v.usageHistory[expert := row],
                       updateCounter := v.updateCounter + 1))
    else
      r.(variant := v.(updateCounter := v.updateCounter + 1))
  }

  // ---------------------------------------------------------------------
  // Exact-balance weights

  /** `torch.clamp(x, lo, hi)`. */
  function Clamp(x: real, lo: real, hi: real): (r: real)
    requires lo <= hi
    ensures lo <= r <= hi
    ensures lo <= x <= hi ==> r == x
  {
    if x < lo then lo else if x > hi then hi else x
  }

  function ColumnSum(cols: seq<seq<real>>, n: nat, e: nat): real
    requires n <= |cols|
    requires forall j :: 0 <= j < n ==> e < |cols[j]|
  {
    if n == 0 then 0.0 else ColumnSum(cols, n - 1, e) + cols[n - 1][e]
  }

  lemma {:induction false} ColumnSumNonNegative(cols: seq<seq<real>>, n: nat, numExperts: nat, e: nat)
    requires n <= |cols| && e < numExperts && LoadColumns(cols, numExperts)
    ensures ColumnSum(cols, n, e) >= 0.0
  {
    if n > 0 {
      ColumnSumNonNegative(cols, n - 1, numExperts, e);
    }
  }

  /**
   * Each expert's mean load over the valid entries of the load history
   * (`min(counter, 50)` columns; at least one after a write).
   */
  function AverageLoads(h: Ring<seq<real>>, numExperts: nat): (avg: seq<real>)
    requires h.Valid() && h.cursor > 0 && LoadColumns(h.slots, numExperts)
    ensures |avg| == numExperts
    ensures forall e :: 0 <= e < numExperts ==> avg[e] >= 0.0
  {
    var n := h.ValidCount();
    var avg := seq(numExperts, e requires 0 <= e < numExperts => ColumnSum(h.slots, n, e) / n as real);
    forall e | 0 <= e < numExperts
      ensures avg[e] >= 0.0
    {
      ColumnSumNonNegative(h.slots, n, numExperts, e);
    }
    avg
  }

  lemma {:induction false} ColumnSumBetween(cols: seq<seq<real>>, n: nat, e: nat, lo: real, hi: real)
    requires n <= |cols|
    requires forall j :: 0 <= j < n ==> e < |cols[j]| && lo <= cols[j][e] <= hi
    ensures n as real * lo <= ColumnSum(cols, n, e) <= n as real * hi
  {
    if n > 0 {
      ColumnSumBetween(cols, n - 1, e, lo, hi);
      var m := (n - 1) as real;
      assert n as real * lo == m * lo + lo && n as real * hi == m * hi + hi;
    }
  }

  lemma MeanBetween(total: real, n: real, lo: real, hi: real)
    requires n > 0.0 && n * lo <= total <= n * hi
    ensures lo <= total / n <= hi
  {
    assert total / n * n == total;
  }

  /**
   * An expert's average load lies between the smallest and the largest
   * load it had over the valid history entries; in particular, if it had
   * the same load `c` in every one of them, its average is `c`.
   */
  lemma AverageLoadsBetween(h: Ring<seq<real>>, numExperts: nat, e: nat, lo: real, hi: real)
    requires h.Valid() && h.cursor > 0 && LoadColumns(h.slots, numExperts) && e < numExperts
    requires forall j :: 0 <= j < h.ValidCount() ==> lo <= h.slots[j][e] <= hi
    ensures lo <= AverageLoads(h, numExperts)[e] <= hi
  {
    var n := h.ValidCount();
    ColumnSumBetween(h.slots, n, e, lo, hi);
    MeanBetween(ColumnSum(h.slots, n, e), n as real, lo, hi);
  }

  const Epsilon: real := 0.00000001

  /** The adjustment toward balance: 1 at the mean load, below 1 above it, above 1 below it. */
  function Adjustment(load: real, target: real): (a: real)
    requires target >= 0.0
    ensures load == target ==> a == 1.0
    ensures load > target ==> a < 1.0
    ensures load < target ==> a > 1.0
  {
    AdjustmentSign(load - target, target + Epsilon);
    1.0 - (load - target) / (target + Epsilon)
  }

  lemma AdjustmentSign(x: real, d: real)
    requires d > 0.0
    ensures x > 0.0 ==> x / d > 0.0
    ensures x < 0.0 ==> x / d < 0.0
  {
  }

  /** The target load `avg_loads.mean()`. */
  function MeanLoad(avg: seq<real>): (t: real)
    requires |avg| > 0
    requires forall e :: 0 <= e < |avg| ==> avg[e] >= 0.0
    ensures t >= 0.0 && t * |avg| as real == Sum(avg)
  {
    SumNonNegative(avg);
    Sum(avg) / |avg| as real
  }

  /** `x` lies between `a` and `b`, in either order. */
  predicate Between(x: real, a: real, b: real)
  {
    (a <= x <= b) || (b <= x <= a)
  }

  /**
   * EMA update `0.9 * w + 0.1 * adjustment`, clamped to `[0.1, 2.0]`. Every
   * weight stays in that interval. A weight already in it moves toward the
   * clamped adjustment and never past it. Of two experts with equal weights,
   * the one with the higher mean load never ends with the higher weight. An
   * expert exactly at the mean load keeps nine tenths of its distance from 1.
   */
  function UpdateWeights(weights: seq<real>, avg: seq<real>): (w': seq<real>)
    requires |weights| == |avg| > 0
    requires forall e :: 0 <= e < |avg| ==> avg[e] >= 0.0
    ensures |w'| == |weights|
    ensures forall e :: 0 <= e < |w'| ==> 0.1 <= w'[e] <= 2.0
    ensures forall e :: 0 <= e < |w'| && 0.1 <= weights[e] <= 2.0 ==>
              Between(w'[e], weights[e], Clamp(Adjustment(avg[e], MeanLoad(avg)), 0.1, 2.0))
    ensures forall e, f :: 0 <= e < |w'| && 0 <= f < |w'| && weights[e] == weights[f] && avg[e] >= avg[f] ==> w'[e] <= w'[f]
    ensures forall e :: 0 <= e < |w'| && 0.1 <= weights[e] <= 2.0 && avg[e] == MeanLoad(avg) ==>
              w'[e] - 1.0 == 0.9 * (weights[e] - 1.0)
    ensures forall e :: 0 <= e < |w'| && weights[e] == 1.0 && avg[e] == Sum(avg) / |avg| as real ==> w'[e] == 1.0
  {
    var target := MeanLoad(avg);
    var w' := seq(|weights|, e requires 0 <= e < |weights| =>
      Clamp(0.9 * weights[e] + 0.1 * Adjustment(avg[e], target), 0.1, 2.0));
    forall e | 0 <= e < |w'| && 0.1 <= weights[e] <= 2.0
      ensures Between(w'[e], weights[e], Clamp(Adjustment(avg[e], target), 0.1, 2.0))
    {
      EmaBetween(weights[e], Adjustment(avg[e], target));
    }
    forall e | 0 <= e < |w'| && 0.1 <= weights[e] <= 2.0 && avg[e] == target
      ensures w'[e] - 1.0 == 0.9 * (weights[e] - 1.0)
    {
      EmaAtTarget(weights[e]);
    }
    forall e, f | 0 <= e < |w'| && 0 <= f < |w'| && weights[e] == weights[f] && avg[e] >= avg[f]
      ensures w'[e] <= w'[f]
    {
      AdjustmentAntitone(avg[e], avg[f], target);
    }
    w'
  }

  /** A clamped step `0.9 * w + 0.1 * a` from an in-range `w` ends between `w` and the clamped `a`. */
  lemma EmaBetween(w: real, a: real)
    requires 0.1 <= w <= 2.0
    ensures Between(Clamp(0.9 * w + 0.1 * a, 0.1, 2.0), w, Clamp(a, 0.1, 2.0))
  {
    var v := 0.9 * w + 0.1 * a;
    assert Between(v, w, a);
    ClampMonotone(w, v, 0.1, 2.0);
    ClampMonotone(v, w, 0.1, 2.0);
    ClampMonotone(v, a, 0.1, 2.0);
    ClampMonotone(a, v, 0.1, 2.0);
  }

  /** At the target load the adjustment is 1, and the clamp never bites on an in-range weight. */
  lemma EmaAtTarget(w: real)
    requires 0.1 <= w <= 2.0
    ensures Clamp(0.9 * w + 0.1 * 1.0, 0.1, 2.0) - 1.0 == 0.9 * (w - 1.0)
  {
  }

  lemma ClampMonotone(x: real, y: real, lo: real, hi: real)
    requires lo <= hi
    ensures x <= y ==> Clamp(x, lo, hi) <= Clamp(y, lo, hi)
  {
  }

  lemma AdjustmentAntitone(a: real, b: real, target: real)
    requires target >= 0.0 && a >= b
    ensures Adjustment(a, target) <= Adjustment(b, target)
  {
    var d := target + Epsilon;
    assert (a - target) / d - (b - target) / d == (a - b) / d;
  }
}
